=== FILE: README.md ===
# cloud-native-webapp in Dafny

This project models the ownership-scoped core of a small Spring Boot REST backend. Users
register and manage their own account. They own products, each with a unique SKU, and attach
JPEG/PNG images to them; the image bytes live in an S3 bucket and the metadata in the database.

Every service call is a pure function. It takes the database state, the request and the caller's
email, and returns an outcome together with the new state:

- The database is three maps keyed by UUID: `users`, `products` and `images`.
- The bucket is a map from object key to object.
- A failed call leaves the database exactly as it was. This is how the model treats
  `@Transactional` rollback.
- The bucket is not transactional. An upload that succeeds stays in the bucket even when the
  database write after it fails.

Exceptions are a datatype with one constructor per exception class the code throws or Spring
raises. `GlobalExceptionHandler` maps them to HTTP statuses. Because its business-rule branch
classifies by searching the lower-cased message text, the service messages are modelled
verbatim. Separate lemmas then prove which status each message gets.

Modules, in dependency order:

| module | covers |
|---|---|
| `Wrappers` | `Option`, `Result` |
| `Text` | Java `trim`, blankness, ASCII lower-casing, substring search, decimal rendering |
| `Exceptions` | the exception classes and field errors |
| `Entities` | the `User`, `Product` and `Image` rows and their bean-validation constraints |
| `Dto` | the request DTOs, their validity, JSON binding of `UserUpdateRequest`, the response DTOs |
| `Repositories` | the three tables, the derived queries and the constraint-checking writes |
| `Blobs` | `S3Service` over an abstract bucket |
| `Handler` | `GlobalExceptionHandler` |
| `Messages`, `Statuses` | the exception messages, and the status each one produces |
| `UserService`, `ProductService`, `ImageService` | the three services |
| `Security` | `SecurityConfig`: the ordered access rules and the credential lookup |
| `Controllers` | `UserController`, plus the product and image endpoints composed with the handler |

Some inputs are not computed by the model; each operation takes them as parameters:

- the password encoder (`encode`, `matches`);
- the clocks (`now` for database timestamps, `millis` for blob keys);
- the ids the database generates (`newId`);
- how the object store answers each call (`fault`, `failures`).

The model follows the code as written, including these behaviours a reader might not expect:

- `deleteProduct` removes only the product row. It never runs the image cascade (service/ProductService.java:129).
  - While the product has images, the `images.product_id` foreign key rejects the delete. The result is a 500.
  - `deleteProductImages` exists, but nothing in the code calls it.
- Duplicate SKU or email is a 400, not a 409. `determineHttpStatus` has no conflict status.
- A present product `description` overwrites the stored one even when it is blank. It is stored trimmed.
- A product SKU is checked for conflicts untrimmed but stored trimmed.
  - A padded SKU whose trimmed form another product holds passes the check.
  - The unique key then rejects it, so the result is a 500 instead of the "already exists" 400 (`ProductService.PaddedSkuCollidesAtSave`).

## Model

All source paths are below `src/main/java/com/chs/webapp/`.

| member | source | states |
|---|---|---|
| Text.TrimEmptyIffBlank | src/main/java/com/chs/webapp/service/ProductService.java:82 | `s.trim().isEmpty()` holds exactly when every character of `s` is at most U+0020, which is the blankness `@NotBlank` rejects |
| Text.DecimalRoundTrip | src/main/java/com/chs/webapp/service/S3Service.java:36 | the decimal text of the upload time reads back as the same number |
| Dto.CreateRequestErrors | src/main/java/com/chs/webapp/dto/ProductCreateRequest.java:17-30 | bean validation of a create request reports errors only on name, sku, manufacturer and quantity |
| Dto.ValidCreateRequestIff | src/main/java/com/chs/webapp/dto/ProductCreateRequest.java:17-30 | a create request is valid exactly when name, sku and manufacturer are present and non-blank and quantity is present and at least 0; description is free |
| Dto.UpdateRequestErrors | src/main/java/com/chs/webapp/dto/ProductUpdateRequest.java:15-21 | all five fields are optional and blank strings pass; the only possible error is a present negative quantity, reported on `quantity` |
| Dto.UserUpdateErrors | src/main/java/com/chs/webapp/dto/UserUpdateRequest.java:18-23 | names are unconstrained; the only possible error is a present password shorter than 8 characters, reported on `password` |
| Dto.BindUserUpdateFrom | src/main/java/com/chs/webapp/dto/UserUpdateRequest.java:15-24 | binding succeeds only if every member is firstName, lastName or password with a text or null value; any other property name, or an object or array value, makes it fail; Spring wraps Jackson's unrecognized-property error, so every failure is an unreadable-body error |
| Dto.UnknownPropertyRejected | src/main/java/com/chs/webapp/dto/UserUpdateRequest.java:15 | a body naming any other property, such as `email` or `id`, is rejected |
| Dto.ImageResponseFrom | src/main/java/com/chs/webapp/dto/ImageResponse.java:24-32 | the response of a stored row carries the image id, the parent product's id and the row's creation time |
| Dto.ImageResponseFromUnflushed | src/main/java/com/chs/webapp/entity/Image.java:37-39 | built from an entity whose INSERT has not run, the response has no creation time (`@CreationTimestamp` is still null) and otherwise equals the stored row's response |
| Dto.ImageResponseRoundTrip | src/main/java/com/chs/webapp/dto/ImageResponse.java:24-32 | `from` copies every column unchanged, so the image row can be read back from the response |
| Repositories.FindByEmail | src/main/java/com/chs/webapp/service/UserService.java:56 | a found user has the email and is stored; with unique emails a user is found exactly when one has the email |
| Repositories.FindByEmailIsStored | src/main/java/com/chs/webapp/service/UserService.java:56 | in a valid store the found user is stored under its own id |
| Repositories.InsertUser | src/main/java/com/chs/webapp/entity/User.java:29-45 | an insert succeeds only for a user that meets the field constraints, under a fresh id and an unused email; the result adds exactly that row and keeps the store valid |
| Repositories.UpdateUserRow | src/main/java/com/chs/webapp/entity/User.java:29-45 | a rewrite succeeds only for a user that meets the field constraints and whose email no other row holds; it replaces exactly that row |
| Repositories.UpdateUserRowPreservesValid | src/main/java/com/chs/webapp/entity/User.java:29-53 | a successful rewrite of a stored user keeps every table invariant, including unique emails and product owners |
| Repositories.FindByOwner | src/main/java/com/chs/webapp/repository/ProductRepository.java:12 | exactly the products whose owner is the given user, unchanged |
| Repositories.FindByOwnerPartitions | src/main/java/com/chs/webapp/repository/ProductRepository.java:12 | a product is listed for one owner only |
| Repositories.FindByIdAndOwner | src/main/java/com/chs/webapp/repository/ProductRepository.java:13 | present exactly when the id exists and its owner is the given user |
| Repositories.SaveProduct | src/main/java/com/chs/webapp/entity/Product.java:29-60 | a save succeeds only for a product with non-blank name, sku and manufacturer, quantity at least 0, an existing owner, a fresh id when new, and a SKU no other product holds; it writes exactly that row |
| Repositories.SaveProductPreservesValid | src/main/java/com/chs/webapp/entity/Product.java:29-60 | a successful save of a new or stored product keeps every table invariant, including unique SKUs and image parents |
| Repositories.DeleteProductRow | src/main/java/com/chs/webapp/service/ProductService.java:129 | the row is removed exactly when no image references it, and nothing else changes |
| Repositories.FindByProduct | src/main/java/com/chs/webapp/repository/ImageRepository.java:13 | exactly the images whose parent is the given product, unchanged |
| Repositories.DeleteByProduct | src/main/java/com/chs/webapp/repository/ImageRepository.java:14 | removes exactly the images `findByProduct` returns, keeps every other row unchanged, and keeps the store valid |
| Repositories.DeleteByProductEmpties | src/main/java/com/chs/webapp/repository/ImageRepository.java:13-14 | afterwards `findByProduct` of that product is empty |
| Repositories.DeleteByProductKeepsOthers | src/main/java/com/chs/webapp/repository/ImageRepository.java:14 | what `findByProduct` returns for any other product is unchanged |
| Repositories.InsertImage | src/main/java/com/chs/webapp/entity/Image.java:28-43 | an insert succeeds only for an image with non-blank file name and key, an existing product and a fresh id; it adds exactly that row and keeps the store valid |
| Repositories.DeleteImageRow | src/main/java/com/chs/webapp/service/ImageService.java:146 | removes that image row, leaves every other image row and the other tables unchanged, and keeps the store valid |
| Blobs.NullableText | src/main/java/com/chs/webapp/service/S3Service.java:37-38 | `%s` renders an absent string (file name or content type) as `null` and a present one unchanged |
| Blobs.BlobKeyRoundTrip | src/main/java/com/chs/webapp/service/S3Service.java:36-38 | every key `<userId>/<productId>/<millis>-<name>` parses back into exactly those four parts |
| Blobs.BlobKeyInjective | src/main/java/com/chs/webapp/service/S3Service.java:36-38 | two uploads share a key only if user, product, millisecond and file name all agree |
| Blobs.UploadFile | src/main/java/com/chs/webapp/service/S3Service.java:33-60 | returns a key exactly when the store accepts the object, and that key is the one stored under and parses to the caller, product and time; an S3 or read failure is a runtime error that stores nothing |
| Blobs.DeleteFile | src/main/java/com/chs/webapp/service/S3Service.java:67-84 | succeeds exactly when the store reports no error; then the key is gone and every other object stays; otherwise a runtime error that changes nothing |
| Blobs.FileExists | src/main/java/com/chs/webapp/service/S3Service.java:91-107 | answers exactly when the store reports no error other than a missing key, and then answers true exactly when the key is stored; any other error is a runtime error |
| Blobs.UploadThenExists | src/main/java/com/chs/webapp/service/S3Service.java:49-52 | after a successful upload, `fileExists` on the returned key is true |
| Blobs.DeleteThenAbsent | src/main/java/com/chs/webapp/service/S3Service.java:76-78 | after a successful delete, `fileExists` on that key is false |
| Handler.DetermineHttpStatus | src/main/java/com/chs/webapp/config/GlobalExceptionHandler.java:91-105 | the status is 400, 403 or 404; 404 exactly when the lower-cased message contains "not found"; 403 exactly when it does not but contains one of the three denial phrases |
| Handler.AlreadyExistsIsBadRequest | src/main/java/com/chs/webapp/config/GlobalExceptionHandler.java:100-104 | an "already exists" message with no 404 or 403 phrase is 400, never 409 |
| Handler.FieldErrorMap | src/main/java/com/chs/webapp/config/GlobalExceptionHandler.java:115-127 | the field map has exactly the rejected fields, and each maps to the message of its last error |
| Handler.Handle | src/main/java/com/chs/webapp/config/GlobalExceptionHandler.java:26-86 | an IllegalArgumentException gets the computed status with its message; validation failures get 400 with "Validation failed" and the field map; the body, type and property errors get 400; an unknown resource gets 404; an unsupported method gets 405 with "Method Not Allowed"; everything else, including a missing multipart part, gets 500 with "Internal server error" |
| Handler.ValidationFailureNamesEveryField | src/main/java/com/chs/webapp/config/GlobalExceptionHandler.java:38-44 | a validation failure is a 400 whose field map names every rejected field |
| Statuses.UserIdNotFoundIs404 | src/main/java/com/chs/webapp/service/UserService.java:48-49 | the unknown-user-id message is a 404 |
| Statuses.UserEmailNotFoundIs404 | src/main/java/com/chs/webapp/service/UserService.java:56-57 | the unknown-email message of the user service is a 404 |
| Statuses.UserNotFoundIs404 | src/main/java/com/chs/webapp/service/ImageService.java:53-54 | the image service's unknown-user message is a 404 |
| Statuses.ProductIdNotFoundIs404 | src/main/java/com/chs/webapp/service/ProductService.java:58-59 | the unknown-product message of `getProductById` is a 404 |
| Statuses.ProductNotFoundWithIdIs404 | src/main/java/com/chs/webapp/service/ImageService.java:49-50 | the image service's unknown-product message is a 404 |
| Statuses.ProductNotFoundOrDeniedIs404 | src/main/java/com/chs/webapp/service/ProductService.java:77-78 | "Product not found or access denied" contains a 403 phrase but is a 404, because "not found" is checked first |
| Statuses.ImageNotFoundIs404 | src/main/java/com/chs/webapp/service/ImageService.java:102-103 | the unknown-image message is a 404 |
| Statuses.UploadDeniedIs403 | src/main/java/com/chs/webapp/service/ImageService.java:56-58 | the upload ownership message is a 403 |
| Statuses.DeleteDeniedIs403 | src/main/java/com/chs/webapp/service/ImageService.java:133-135 | the image-delete ownership message is a 403 |
| Statuses.ViewDeniedIs403 | src/main/java/com/chs/webapp/controller/UserController.java:40-42 | the view-self message is a 403 |
| Statuses.OnlyOwnAccountIs403 | src/main/java/com/chs/webapp/service/UserService.java:65-67 | the update-self message is a 403 |
| Statuses.ImageProductMismatchIs400 | src/main/java/com/chs/webapp/service/ImageService.java:106-108 | the image/product mismatch message is a 400 |
| Statuses.NoValidFieldsIs400 | src/main/java/com/chs/webapp/service/ProductService.java:110-112 | the no-valid-fields message is a 400 |
| Statuses.FileRequiredIs400 | src/main/java/com/chs/webapp/service/ImageService.java:182-184 | the missing-file message is a 400 |
| Statuses.SkuTakenIs400 | src/main/java/com/chs/webapp/service/ProductService.java:29-31 | the duplicate-SKU message is a 400 for a SKU without spaces |
| Statuses.SkuTakenCanReadAsNotFound | src/main/java/com/chs/webapp/service/ProductService.java:29-31 | the SKU is spliced into the message, so the duplicate-SKU message for the SKU "x not found" is a 404 |
| Statuses.UserEmailTakenIs400 | src/main/java/com/chs/webapp/service/UserService.java:28-30 | the duplicate-email message is a 400 for an email without spaces |
| UserService.ResponseHidesPassword | src/main/java/com/chs/webapp/service/UserService.java:94-103 | the response is the same whatever the stored password is |
| UserService.CreateUser | src/main/java/com/chs/webapp/service/UserService.java:24-44 | a taken email fails with "already exists" and writes nothing; success stores exactly the request's email and names with the encoded password and the current timestamps; it succeeds exactly when the email is unused, the id fresh and the row valid |
| UserService.CreateThenFind | src/main/java/com/chs/webapp/service/UserService.java:39-43 | in a valid store a created account keeps the store valid and is found again by id and by email |
| UserService.GetUserById | src/main/java/com/chs/webapp/service/UserService.java:46-52 | succeeds exactly for a stored id; otherwise the not-found error |
| UserService.FindUser | src/main/java/com/chs/webapp/service/UserService.java:54-58 | returns a stored user with that email; with unique emails it succeeds exactly when one exists; otherwise the not-found error |
| UserService.MergeUser | src/main/java/com/chs/webapp/service/UserService.java:69-81 | the merge never changes id, email or creation time |
| UserService.MergeUserRules | src/main/java/com/chs/webapp/service/UserService.java:70-81 | names change only to a non-blank value and are stored trimmed; a non-blank password is replaced by the encoding of the untrimmed input; absent or blank fields are kept |
| UserService.MergeUserKeepsValid | src/main/java/com/chs/webapp/service/UserService.java:70-81 | merging keeps a valid user valid when the encoder yields a non-blank hash of at least 8 characters |
| UserService.UpdateUser | src/main/java/com/chs/webapp/service/UserService.java:60-91 | the checks run in order: unknown id, then another person's account, then no qualifying field; each gives its error and changes nothing; success rewrites only that user, to the merged row whose update time moves only when a column changed, and returns that row's response |
| UserService.UpdateUserKeepsValid | src/main/java/com/chs/webapp/service/UserService.java:60-91 | in a valid store the owner's update with a qualifying field succeeds and keeps the store valid |
| ProductService.ResponseRoundTrip | src/main/java/com/chs/webapp/service/ProductService.java:133-145 | the response loses nothing, so the product row can be read back from it |
| ProductService.CreateProduct | src/main/java/com/chs/webapp/service/ProductService.java:25-47 | an exact SKU match fails with "already exists" before the owner lookup and writes nothing; success stores exactly the request's fields with the caller as owner, and the response names that owner |
| ProductService.CreateProductSucceeds | src/main/java/com/chs/webapp/service/ProductService.java:33-46 | in a valid store a valid request from a registered caller with a new SKU succeeds, keeps the store valid, and the product reads back by id |
| ProductService.GetAllProducts | src/main/java/com/chs/webapp/service/ProductService.java:49-54 | every stored product, and only those, each reading back unchanged |
| ProductService.GetProductById | src/main/java/com/chs/webapp/service/ProductService.java:56-62 | succeeds exactly for a stored id and reads back that product; otherwise the not-found error |
| ProductService.GetProductsByUser | src/main/java/com/chs/webapp/service/ProductService.java:64-70 | fails exactly when the caller is unknown; otherwise exactly the caller's products, unchanged |
| ProductService.ProductsByUserDisjoint | src/main/java/com/chs/webapp/service/ProductService.java:64-70 | two different callers never see the same product |
| ProductService.MergeProduct | src/main/java/com/chs/webapp/service/ProductService.java:80-108 | the merge never changes id, owner or date added |
| ProductService.MergeProductRules | src/main/java/com/chs/webapp/service/ProductService.java:82-108 | name, SKU and manufacturer change only to a non-blank value, stored trimmed; a present description always replaces the stored one, trimmed, even when blank; a present quantity always replaces it, 0 included; absent fields are kept |
| ProductService.MergeProductKeepsValid | src/main/java/com/chs/webapp/service/ProductService.java:82-108 | merging a request that passed validation keeps a valid product valid |
| ProductService.UpdateProduct | src/main/java/com/chs/webapp/service/ProductService.java:72-119 | the checks run in order: unknown caller, then missing or foreign product (one message), then SKU conflict, then no qualifying field; each changes nothing; success rewrites only that product and moves the update time only when a column changed |
| ProductService.SaveMerged | src/main/java/com/chs/webapp/service/ProductService.java:114-118 | on success exactly the merged row is written and returned; on failure nothing changes |
| ProductService.UpdateHidesForeignProducts | src/main/java/com/chs/webapp/service/ProductService.java:76-78 | updating a missing product and someone else's product give the identical result and change nothing |
| ProductService.UpdateProductKeepsValid | src/main/java/com/chs/webapp/service/ProductService.java:72-119 | in a valid store the owner's valid update, with a qualifying field and a trimmed SKU no other product holds, succeeds and keeps the store valid |
| ProductService.PaddedSkuCollidesAtSave | src/main/java/com/chs/webapp/service/ProductService.java:92-98 | a padded SKU whose trimmed form another product holds passes the conflict check and then fails on the unique key |
| ProductService.DeleteProduct | src/main/java/com/chs/webapp/service/ProductService.java:121-131 | an unknown caller, or a missing or foreign product, gives its error; otherwise it succeeds exactly when the product has no images and removes only that row, images untouched |
| ProductService.DeleteThenGone | src/main/java/com/chs/webapp/service/ProductService.java:121-131 | after a successful delete `getProductById` reports not found, and the store stays valid |
| ProductService.DeleteWithImagesFails | src/main/java/com/chs/webapp/service/ProductService.java:129 | the owner's delete of a product with images fails on the foreign key and changes nothing |
| ImageService.ValidateImageFile | src/main/java/com/chs/webapp/service/ImageService.java:181-197 | accepts exactly a non-empty file whose lower-cased content type is allowed; a missing or empty file gives "File is required", otherwise the invalid-type message naming the type, `null` when absent |
| ImageService.ContentTypeCaseInsensitive | src/main/java/com/chs/webapp/service/ImageService.java:187-188 | a content type is accepted exactly when its lower-case form is |
| ImageService.ContentTypeExamples | src/main/java/com/chs/webapp/service/ImageService.java:32-36 | `IMAGE/PNG` is accepted and `image/gif` is not |
| ImageService.BlobKeyNotBlank | src/main/java/com/chs/webapp/entity/Image.java:41-43 | a generated object key is never blank, so it meets the key column's constraint |
| ImageService.UploadImage | src/main/java/com/chs/webapp/service/ImageService.java:41-75 | validation, then product, then caller, then ownership, each failing with nothing changed; the bucket changes only after all checks pass and the store accepts; a store failure saves no row; success saves a row whose key parses to the owner, product, time and file name, and answers with that row's columns but no creation time, because the row is saved without a flush |
| ImageService.UploadResponseLacksCreationTime | src/main/java/com/chs/webapp/service/ImageService.java:64-74 | the upload's body has a null creation time, while reading the image back afterwards returns the same columns with the creation time the row received |
| ImageService.UploadImageSucceeds | src/main/java/com/chs/webapp/service/ImageService.java:61-74 | in a valid store the owner's upload of an acceptable named file under a fresh id succeeds and keeps the store valid |
| ImageService.UnnamedUploadOrphansBlob | src/main/java/com/chs/webapp/service/ImageService.java:61-70 | an upload without a file name stores the object and then fails on the row, leaving the object behind |
| ImageService.GetProductImages | src/main/java/com/chs/webapp/service/ImageService.java:80-93 | fails exactly for a missing product; otherwise exactly that product's images, unchanged |
| ImageService.GetImageById | src/main/java/com/chs/webapp/service/ImageService.java:98-111 | succeeds exactly for an image of the path product; a missing image and a mismatched product give their errors |
| ImageService.ImageByIdIsListed | src/main/java/com/chs/webapp/service/ImageService.java:80-111 | an image read through a product appears unchanged in that product's listing |
| ImageService.DeleteImage | src/main/java/com/chs/webapp/service/ImageService.java:116-149 | missing image, product mismatch, unknown caller and non-owner are checked in order and change nothing; otherwise the row is deleted and the object is removed unless the store fails |
| ImageService.DeleteImageIgnoresStoreFailure | src/main/java/com/chs/webapp/service/ImageService.java:138-146 | a failing object delete changes neither the outcome nor the database result |
| ImageService.DeleteProductImages | src/main/java/com/chs/webapp/service/ImageService.java:154-176 | a missing product fails with nothing changed; otherwise exactly that product's image rows go, and the bucket loses exactly their objects whose delete the store accepts |
| ImageService.RemoveObjects | src/main/java/com/chs/webapp/service/ImageService.java:164-170 | one best-effort delete per image leaves the bucket without exactly the keys the store accepted |
| ImageService.DeleteProductImagesUnblocksDelete | src/main/java/com/chs/webapp/service/ImageService.java:173 | after `deleteByProduct`, deleting the product row succeeds |
| Security.ParsePattern | src/main/java/com/chs/webapp/config/SecurityConfig.java:43 | a pattern ending in `/*` is a one-segment pattern under the text before it; anything else is literal |
| Security.FirstMatch | src/main/java/com/chs/webapp/config/SecurityConfig.java:39-45 | access is permitted only if some rule applies; when every listed rule permits, it is permitted exactly when some rule applies |
| Security.PublicIff | src/main/java/com/chs/webapp/config/SecurityConfig.java:39-45 | without credentials exactly these pass: any method on `/v1/user` or `/health`, and a GET of `/v1/product` or one segment below it |
| Security.ProductUserListingIsPublic | src/main/java/com/chs/webapp/config/SecurityConfig.java:43 | `GET /v1/product/user` falls under the one-segment rule and needs no credentials |
| Security.UserRecordNeedsCredentials | src/main/java/com/chs/webapp/config/SecurityConfig.java:40-44 | every request on `/v1/user/{id}` needs credentials |
| Security.ProductReadPublicImagesNot | src/main/java/com/chs/webapp/config/SecurityConfig.java:43-44 | `GET /v1/product/{id}` is public but `GET /v1/product/{id}/image` needs credentials |
| Security.ProductWritesNeedCredentials | src/main/java/com/chs/webapp/config/SecurityConfig.java:42-44 | every method except GET on `/v1/product` and its one-segment children needs credentials |
| Security.LoadUserByUsername | src/main/java/com/chs/webapp/config/SecurityConfig.java:57-69 | succeeds exactly when the user service finds the email; the details are a stored user's email and hash with `ROLE_USER`; otherwise the service's error |
| Security.AuthenticatesIff | src/main/java/com/chs/webapp/config/SecurityConfig.java:57-69 | in a valid store credentials are accepted exactly when a user has the email and the encoder matches the password against that user's hash |
| Controllers.CreateUserEndpoint | src/main/java/com/chs/webapp/controller/UserController.java:25-31 | invalid bodies are a 400 with a field map; otherwise the service's success is a 201 carrying its response; a failure changes nothing |
| Controllers.DuplicateEmailIs400 | src/main/java/com/chs/webapp/service/UserService.java:28-30 | registering a taken email is a 400 and writes nothing |
| Controllers.GetUserEndpoint | src/main/java/com/chs/webapp/controller/UserController.java:33-43 | 200 exactly for the caller's own record; an unknown id is a 404 for anyone, before the ownership check; someone else's record is a 403 with the view-denied message |
| Controllers.UpdateUserEndpoint | src/main/java/com/chs/webapp/controller/UserController.java:45-53 | binding and validation failures are 400s that change nothing; otherwise the service result with the caller as ownership key: 200, or 404 for an unknown id, or 403 for someone else's account |
| Controllers.UnknownUserPropertyIs400 | src/main/java/com/chs/webapp/dto/UserUpdateRequest.java:15 | a body naming any other property is a 400 that changes nothing |
| Controllers.GetUserProductsEndpoint | src/main/java/com/chs/webapp/controller/ProductController.java:51-58 | an anonymous request is a 500; otherwise the service's listing |
| Controllers.AnonymousProductListingIs500 | src/main/java/com/chs/webapp/controller/ProductController.java:55 | the access rules let anonymous `GET /v1/product/user` through and the handler then answers 500 |
| Controllers.CreateProductEndpoint | src/main/java/com/chs/webapp/controller/ProductController.java:26-33 | an invalid body is a 400 that changes nothing; success is a 201 exactly when the service succeeds |
| Controllers.DuplicateSkuIs400 | src/main/java/com/chs/webapp/service/ProductService.java:29-31 | a valid create with a taken SKU is a 400 and writes nothing |
| Controllers.UpdateProductEndpoint | src/main/java/com/chs/webapp/controller/ProductController.java:60-67 | an invalid body is a 400 that changes nothing; success is a 200 exactly when the service succeeds |
| Controllers.ForeignProductUpdateIs404 | src/main/java/com/chs/webapp/service/ProductService.java:77-78 | a registered caller's update of a missing or foreign product is a 404 and changes nothing |
| Controllers.DeleteProductEndpoint | src/main/java/com/chs/webapp/controller/ProductController.java:69-76 | a 204 exactly when the service deletes, removing only that product |
| Controllers.DeleteProductWithImagesIs500 | src/main/java/com/chs/webapp/service/ProductService.java:129 | the owner's delete of a product with images is a 500 and the product stays |
| Controllers.UploadImageEndpoint | src/main/java/com/chs/webapp/controller/ImageController.java:28-40 | a request whose `file` part is absent or has no file name (so Spring makes no `MultipartFile` of it) fails in argument binding and is answered by the generic handler before the service runs; otherwise a 201 exactly when the upload succeeds; a failure leaves the database unchanged |
| Controllers.MissingFilePartIs500 | src/main/java/com/chs/webapp/controller/ImageController.java:31 | the required `file` part is missing or has no file name: a 500 "Internal server error" that touches neither store |
| Controllers.ForeignUploadIs403 | src/main/java/com/chs/webapp/service/ImageService.java:56-58 | uploading a named file to someone else's product is a 403 and touches neither store |
| Controllers.EmptyFileIs400 | src/main/java/com/chs/webapp/service/ImageService.java:182-184 | an upload whose named `file` part is empty is a 400 and touches neither store |
| Controllers.GetImageEndpoint | src/main/java/com/chs/webapp/controller/ImageController.java:58-67 | 200 exactly for an image of the path product; a missing image is a 404, a mismatched product a 400 |
| Controllers.DeleteImageEndpoint | src/main/java/com/chs/webapp/controller/ImageController.java:73-85 | a 204 exactly when the service deletes; a non-owner gets a 403 with both stores unchanged; a mismatched product gets a 400 |

## Left out

- Password hashing: `PasswordConfig` and BCrypt are not part of this model. The encoder (`encode`) and its `matches` are parameters the model does not look inside.
- The AWS SDK calls in `S3Service` are foreign library calls. The bucket is a map, and how each call ends is an input. Bucket name, content length and logging are not modelled.
- Spring MVC routing, Jackson deserialization, multipart parsing and the Jakarta validation machinery are not modelled. Only the resulting validity predicates, binding outcomes and statuses are kept.
  - `UserCreateRequest` is not part of this model, so its bean-validation errors are an input to `Controllers.CreateUserEndpoint`.
  - The 5 MB multipart size limit is not modelled.
  - An integer that does not fit a Java `Integer` is not modelled.
- Transactions and concurrency: the model is sequential. The race between the SKU/email pre-check and the unique key is not modelled. A failed call leaves the database unchanged.
- Clocks and generated ids are parameters:
  - `now` stands for `@CreationTimestamp`/`@UpdateTimestamp`;
  - `millis` stands for `System.currentTimeMillis()`;
  - `newId` stands for `@GeneratedValue`.
  - The update timestamp moves only when a column changed, as Hibernate flushes only dirty rows.
- The response re-read after `saveAndFlush` in the user and product services returns the saved row and is modelled as the saved row itself. The image upload saves without a flush; its response is modelled with a null creation time.
- The listings (`getAllProducts`, `getProductsByUser`, `getProductImages`) return lists in query order. They are modelled as maps keyed by id: the derived queries have no ORDER BY, so the order is unspecified, and ids are unique, so no element is lost.
- `@Email` format checking of `User.email` is not modelled. The other constraints of `User` are.
- Lower-casing and `trim` are modelled for ASCII letters and for characters up to U+0020. Locale-dependent non-ASCII case mapping is not modelled.
- Request-path matching covers literal paths and a single trailing `*` segment, which may be empty. URL decoding, trailing-slash handling and path normalization are not modelled.
- An unauthenticated request to a protected path is answered by the HTTP Basic entry point (401). The model only says that such a request is not public.
- Not part of this model: logging, the health endpoint, `authenticationManager`, CSRF and session settings.
- Repositories.FindByEmail: a table holding two users with the same email (which the unique key rules out) is read as "no user". The real query would throw instead.
- ImageService.DeleteImage: an image whose product row is missing (which the foreign key rules out) is treated as not owned by the caller. The real code would fail while loading the product.
- The `images.product_id` foreign key is taken to be enforced by the database schema. That is what makes `deleteProduct` fail while images exist.
- Statuses.SkuTakenIs400 is proved only for SKUs without spaces. A SKU containing "not found" or a denial phrase changes the status (see `Statuses.SkuTakenCanReadAsNotFound`).
- Statuses.UserEmailTakenIs400 is proved only for emails without spaces, for the same reason.
- Controllers.DuplicateSkuIs400 assumes a SKU without spaces, inherited from `Statuses.SkuTakenIs400`.
- Controllers.DuplicateEmailIs400 assumes an email without spaces, inherited from `Statuses.UserEmailTakenIs400`.
- The invalid-file-type message is not classified by a lemma of its own. `Controllers.EmptyFileIs400` covers the empty-file case only.
- A non-multipart request to the upload endpoint (`MultipartException`) is not modelled separately. Like a missing part, it would reach the generic 500 handler.
- ImageService.RemoveObjects: the store's answer to each `deleteFile` is keyed by object path, not by call. Two image rows sharing one `s3BucketPath` therefore get the same answer, where the real store could answer the two calls differently; the second call would then only delete an object that is already gone.

=== FILE: blobs.dfy ===
/**
 * `S3Service`: the object-key format and the success/failure contract of its three calls over
 * an abstract bucket. Whether a call to the store fails is an input (`fault`), because the
 * store may fail at any time for reasons the application cannot see.
 */
module Blobs {
  import opened Wrappers
  import opened Text
  import opened Exceptions
  import opened Entities

  newtype Byte = b: int | 0 <= b < 256

  /** A multipart upload as the services read it; absent name and type are `null` in Java. */
  datatype Upload = Upload(originalFilename: Option<string>, contentType: Option<string>, bytes: seq<Byte>)

  /** A stored object. */
  datatype Blob = Blob(contentType: Option<string>, bytes: seq<Byte>)

  /** The configured bucket: object key to object. */
  type Bucket = map<string, Blob>

  /** How a `putObject` attempt ends. */
  datatype UploadFault =
    | Stored
    | S3Failed(message: string)   // `S3Exception` from the store
    | ReadFailed(message: string) // `IOException` while reading the upload's bytes

  /** `%s` of a possibly-null string: the text itself, or `null`. */
  function NullableText(f: Option<string>): (r: string)
    ensures f.Some? ==> r == f.value
    ensures f.None? ==> r == "null"
  {
    match f
    case Some(name) => name
    case None => "null"
  }

  /** The object key `<userId>/<productId>/<millis>-<originalFilename>`. */
  function BlobKey(userId: Uuid, productId: Uuid, millis: nat, filename: Option<string>): string {
    userId + "/" + productId + "/" + Decimal(millis) + "-" + NullableText(filename)
  }

  /** The length of the run of decimal digits `s` starts with. */
  function DigitRun(s: string): (n: nat)
    ensures n <= |s|
    ensures forall k | 0 <= k < n :: IsDigit(s[k])
    ensures n == |s| || !IsDigit(s[n])
    decreases |s|
  {
    if |s| > 0 && IsDigit(s[0]) then 1 + DigitRun(s[1..]) else 0
  }

  /** The digit run of `d + t` is all of `d` when `t` starts with a non-digit. */
  lemma {:induction false} DigitRunOfDigits(d: string, t: string)
    requires forall k | 0 <= k < |d| :: IsDigit(d[k])
    requires |t| > 0 && !IsDigit(t[0])
    ensures DigitRun(d + t) == |d|
    decreases |d|
  {
    if |d| > 0 {
      assert (d + t)[1..] == d[1..] + t;
      DigitRunOfDigits(d[1..], t);
    } else {
      assert d + t == t;
    }
  }

  /** The parts of an object key: owner id, product id, upload time and file-name text. */
  datatype KeyParts = KeyParts(userId: Uuid, productId: Uuid, millis: nat, filename: string)

  /** Reads an object key back into its parts; `None` for text that is not such a key. */
  function ParseBlobKey(key: string): Option<KeyParts> {
    if |key| < 76 || key[36] != '/' || key[73] != '/' then None
    else
      var user, product, rest := key[..36], key[37..73], key[74..];
      var n := DigitRun(rest);
      if !IsUuidText(user) || !IsUuidText(product) || n == 0 || n == |rest| || rest[n] != '-' then None
      else Some(KeyParts(user, product, DigitsValue(rest[..n]), rest[n + 1..]))
  }

  /** Every object key reads back into the parts it was built from. */
  lemma BlobKeyRoundTrip(userId: Uuid, productId: Uuid, millis: nat, filename: Option<string>)
    ensures ParseBlobKey(BlobKey(userId, productId, millis, filename))
         == Some(KeyParts(userId, productId, millis, NullableText(filename)))
  {
    var key := BlobKey(userId, productId, millis, filename);
    var digits, name := Decimal(millis), NullableText(filename);
    assert key == userId + "/" + productId + "/" + (digits + ("-" + name));
    assert key[..36] == userId;
    assert key[37..73] == productId;
    var rest := key[74..];
    assert rest == digits + ("-" + name);
    DigitRunOfDigits(digits, "-" + name);
    assert rest[..|digits|] == digits;
    assert rest[|digits| + 1..] == name;
    DecimalRoundTrip(millis);
  }

  /**
   * Two uploads share an object key only when they come from the same user, for the same
   * product, in the same millisecond, under the same file name.
   */
  lemma BlobKeyInjective(u1: Uuid, p1: Uuid, m1: nat, f1: Option<string>,
                         u2: Uuid, p2: Uuid, m2: nat, f2: Option<string>)
    requires BlobKey(u1, p1, m1, f1) == BlobKey(u2, p2, m2, f2)
    ensures u1 == u2 && p1 == p2 && m1 == m2 && NullableText(f1) == NullableText(f2)
  {
    BlobKeyRoundTrip(u1, p1, m1, f1);
    BlobKeyRoundTrip(u2, p2, m2, f2);
  }

  /** `uploadFile`: stores the upload under its key and returns that key, or throws. */
  function UploadFile(bucket: Bucket, file: Upload, userId: Uuid, productId: Uuid, millis: nat,
                      fault: UploadFault): (r: (Outcome<string>, Bucket))
    ensures r.0.Ok? <==> fault.Stored?
    ensures r.0.Ok? ==> ParseBlobKey(r.0.value) == Some(KeyParts(userId, productId, millis, NullableText(file.originalFilename)))
    ensures r.0.Ok? ==> r.1 == bucket[r.0.value := Blob(file.contentType, file.bytes)]
    ensures r.0.Err? ==> r.1 == bucket && r.0.error.Runtime?
  {
    match fault
    case Stored =>
      var key := BlobKey(userId, productId, millis, file.originalFilename);
      BlobKeyRoundTrip(userId, productId, millis, file.originalFilename);
      (Ok(key), bucket[key := Blob(file.contentType, file.bytes)])
    case S3Failed(m) => (Err(Runtime("Failed to upload file to S3: " + m)), bucket)
    case ReadFailed(m) => (Err(Runtime("Failed to read file: " + m)), bucket)
  }

  /**
   * `deleteFile`: removes the object (deleting an absent key succeeds), or throws when the
   * store reports an error (`fault` holds its message).
   */
  function DeleteFile(bucket: Bucket, key: string, fault: Option<string>): (r: (Outcome<()>, Bucket))
    ensures r.0.Ok? <==> fault.None?
    ensures r.0.Ok? ==> key !in r.1 && forall k | k in bucket && k != key :: k in r.1 && r.1[k] == bucket[k]
    ensures r.0.Err? ==> r.1 == bucket && r.0.error.Runtime?
  {
    match fault
    case None => (Ok(()), bucket - {key})
    case Some(m) => (Err(Runtime("Failed to delete file from S3: " + m)), bucket)
  }

  /** `fileExists`: `NoSuchKey` is an answer, any other store error is thrown. */
  function FileExists(bucket: Bucket, key: string, fault: Option<string>): (r: Outcome<bool>)
    ensures r.Ok? <==> fault.None?
    ensures r.Ok? ==> (r.value <==> key in bucket)
    ensures r.Err? ==> r.error.Runtime?
  {
    match fault
    case None => Ok(key in bucket)
    case Some(m) => Err(Runtime("Failed to check file existence: " + m))
  }

  /** A successful upload is visible to `fileExists` under the returned key. */
  lemma UploadThenExists(bucket: Bucket, file: Upload, userId: Uuid, productId: Uuid, millis: nat)
    ensures var (r, after) := UploadFile(bucket, file, userId, productId, millis, Stored);
            FileExists(after, r.value, None) == Ok(true)
  {
  }

  /** After a successful delete, `fileExists` answers false for that key. */
  lemma DeleteThenAbsent(bucket: Bucket, key: string)
    ensures FileExists(DeleteFile(bucket, key, None).1, key, None) == Ok(false)
  {
  }
}

=== FILE: controllers.dfy ===
/**
 * The REST controllers as the client sees them: `UserController` with its view-self check, and
 * the delegating product and image endpoints, each composed with `GlobalExceptionHandler` so
 * that every outcome is an HTTP status and a body.
 */
module Controllers {
  import opened Wrappers
  import opened Text
  import opened Exceptions
  import opened Entities
  import opened Dto
  import opened Repositories
  import opened Messages
  import opened Handler
  import opened Statuses
  import opened Blobs
  import UserService
  import ProductService
  import ImageService
  import Security

  /** A controller's answer: a success status with its body, or the handler's error response. */
  datatype HttpResult<T> = Success(status: int, value: T) | Failure(response: Response)

  function StatusOf<T>(r: HttpResult<T>): int {
    match r
    case Success(s, _) => s
    case Failure(resp) => resp.status
  }

  /** A service outcome turned into a response: `okStatus` on success, the handler's mapping otherwise. */
  function Respond<T>(o: Outcome<T>, okStatus: int): HttpResult<T> {
    match o
    case Ok(v) => Success(okStatus, v)
    case Err(e) => Failure(Handle(e))
  }

  // ---------------------------------------------------------------- UserController

  /**
   * `POST /v1/user`: bean validation of the body (its errors are an input, the request class is
   * not part of this model), then `createUser`, answered with 201.
   */
  function CreateUserEndpoint(db: Db, req: UserCreateRequest, bindingErrors: seq<FieldError>,
                              encode: string -> string, newId: Uuid, now: Instant): (r: (HttpResult<UserResponse>, Db))
    ensures bindingErrors != [] ==> r.1 == db && StatusOf(r.0) == 400 && r.0.Failure? && r.0.response.body.ValidationBody?
    ensures r.0.Success? <==> bindingErrors == [] && UserService.CreateUser(db, req, encode, newId, now).result.Ok?
    ensures r.0.Success? ==> r.0 == Success(201, UserService.CreateUser(db, req, encode, newId, now).result.value)
    ensures r.0.Failure? ==> r.1 == db
  {
    if bindingErrors != [] then (Failure(Handle(MethodArgumentNotValid(bindingErrors))), db)
    else
      var t := UserService.CreateUser(db, req, encode, newId, now);
      (Respond(t.result, 201), t.db)
  }

  /** Registering an email that is already taken is a 400, never a 409, and writes nothing. */
  lemma DuplicateEmailIs400(db: Db, req: UserCreateRequest, encode: string -> string, newId: Uuid, now: Instant)
    requires ExistsByEmail(db, req.email) && NoSpace(req.email)
    ensures StatusOf(CreateUserEndpoint(db, req, [], encode, newId, now).0) == 400
    ensures CreateUserEndpoint(db, req, [], encode, newId, now).1 == db
  {
    UserEmailTakenIs400(req.email);
  }

  /**
   * `GET /v1/user/{id}`: the service lookup first, so an unknown id is a 404 for anyone; then
   * the record must carry the caller's email, otherwise 403.
   */
  function GetUserEndpoint(db: Db, id: Uuid, caller: string): (r: HttpResult<UserResponse>)
    ensures StatusOf(r) == 200 <==> id in db.users && db.users[id].email == caller
    ensures id !in db.users ==> StatusOf(r) == 404
    ensures id in db.users && db.users[id].email != caller ==>
      r == Failure(Response(403, ErrorBody(ViewDenied())))
    ensures r.Success? ==> id in db.users && r.value == UserService.ToResponse(db.users[id])
  {
    match UserService.GetUserById(db, id)
    case Err(e) =>
      UserIdNotFoundIs404(id);
      Failure(Handle(e))
    case Ok(u) =>
      if u.email != caller then
        ViewDeniedIs403();
        Failure(Handle(IllegalArgument(ViewDenied())))
      else Success(200, u)
  }

  /**
   * `PUT /v1/user/{id}`: the body is bound (unknown properties rejected), validated, and handed to
   * `updateUser` with the caller's email as the ownership key; 200 on success.
   */
  function UpdateUserEndpoint(db: Db, id: Uuid, body: seq<(string, Json)>, caller: string,
                              encode: string -> string, now: Instant): (r: (HttpResult<UserResponse>, Db))
    ensures r.0.Failure? ==> r.1 == db
    ensures BindUserUpdate(body).Err? ==> StatusOf(r.0) == 400
    ensures (BindUserUpdate(body).Ok? && !ValidUserUpdate(BindUserUpdate(body).value)) ==>
      && r.0.Failure? && r.0.response.status == 400 && r.0.response.body.ValidationBody?
      && "password" in r.0.response.body.fieldErrors
    ensures (BindUserUpdate(body).Ok? && ValidUserUpdate(BindUserUpdate(body).value)) ==>
      && var t := UserService.UpdateUser(db, id, BindUserUpdate(body).value, caller, encode, now);
      && r.1 == t.db
      && (t.result.Ok? ==> r.0 == Success(200, t.result.value))
      && (id !in db.users ==> StatusOf(r.0) == 404)
      && (id in db.users && db.users[id].email != caller ==> StatusOf(r.0) == 403)
  {
    match BindUserUpdate(body)
    case Err(e) => (Failure(Handle(e)), db)
    case Ok(req) =>
      if !ValidUserUpdate(req) then
        var errs := UserUpdateErrors(req);
        assert errs[0].field == "password";
        (Failure(Handle(MethodArgumentNotValid(errs))), db)
      else
        var t := UserService.UpdateUser(db, id, req, caller, encode, now);
        UserIdNotFoundIs404(id);
        OnlyOwnAccountIs403();
        (Respond(t.result, 200), t.db)
  }

  /** A body naming a property the request does not have, such as `email` or `id`, is a 400 that changes nothing. */
  lemma UnknownUserPropertyIs400(db: Db, id: Uuid, body: seq<(string, Json)>, i: nat, caller: string,
                                 encode: string -> string, now: Instant)
    requires i < |body| && !IsUserUpdateProperty(body[i].0)
    ensures StatusOf(UpdateUserEndpoint(db, id, body, caller, encode, now).0) == 400
    ensures UpdateUserEndpoint(db, id, body, caller, encode, now).1 == db
  {
    UnknownPropertyRejected(body, i);
  }

  // ------------------------------------------------------------- ProductController

  /**
   * `GET /v1/product/user`: the handler reads the caller's name from the authentication, which is
   * absent for an anonymous request.
   */
  function GetUserProductsEndpoint(db: Db, caller: Option<string>): (r: HttpResult<map<Uuid, ProductResponse>>)
    ensures caller.None? ==> r == Failure(Response(500, ErrorBody("Internal server error")))
    ensures caller.Some? ==> r == Respond(ProductService.GetProductsByUser(db, caller.value), 200)
  {
    match caller
    case None => Failure(Handle(NullPointer))
    case Some(email) => Respond(ProductService.GetProductsByUser(db, email), 200)
  }

  /**
   * The access rules let an anonymous `GET /v1/product/user` through, and the handler then fails
   * on the missing caller: a 500 instead of a 401.
   */
  lemma AnonymousProductListingIs500(db: Db)
    ensures Security.IsPublic(Security.Get, "/v1/product/user")
    ensures StatusOf(GetUserProductsEndpoint(db, None)) == 500
  {
    Security.ProductUserListingIsPublic();
  }

  /** `POST /v1/product`: bean validation, then `createProduct`, answered with 201. */
  function CreateProductEndpoint(db: Db, req: ProductCreateRequest, caller: string, newId: Uuid, now: Instant)
    : (r: (HttpResult<ProductResponse>, Db))
    ensures !ValidCreateRequest(req) ==> r.1 == db && StatusOf(r.0) == 400
    ensures r.0.Success? <==> ValidCreateRequest(req) && ProductService.CreateProduct(db, req, caller, newId, now).result.Ok?
    ensures r.0.Success? ==> r.0.status == 201
    ensures r.0.Failure? ==> r.1 == db
  {
    var errs := CreateRequestErrors(req);
    if errs != [] then (Failure(Handle(MethodArgumentNotValid(errs))), db)
    else
      var t := ProductService.CreateProduct(db, req, caller, newId, now);
      (Respond(t.result, 201), t.db)
  }

  /** A valid create request whose SKU is already stored is a 400, never a 409, and writes nothing. */
  lemma DuplicateSkuIs400(db: Db, req: ProductCreateRequest, caller: string, newId: Uuid, now: Instant)
    requires ValidCreateRequest(req) && ExistsBySku(db, req.sku.value) && NoSpace(req.sku.value)
    ensures StatusOf(CreateProductEndpoint(db, req, caller, newId, now).0) == 400
    ensures CreateProductEndpoint(db, req, caller, newId, now).1 == db
  {
    SkuTakenIs400(req.sku.value);
  }

  /** `PUT /v1/product/{id}`: bean validation, then `updateProduct`, answered with 200. */
  function UpdateProductEndpoint(db: Db, id: Uuid, req: ProductUpdateRequest, caller: string, now: Instant)
    : (r: (HttpResult<ProductResponse>, Db))
    ensures !ValidUpdateRequest(req) ==> r.1 == db && StatusOf(r.0) == 400
    ensures r.0.Success? <==> ValidUpdateRequest(req) && ProductService.UpdateProduct(db, id, req, caller, now).result.Ok?
    ensures r.0.Success? ==> r.0.status == 200
    ensures r.0.Failure? ==> r.1 == db
  {
    var errs := UpdateRequestErrors(req);
    if errs != [] then (Failure(Handle(MethodArgumentNotValid(errs))), db)
    else
      var t := ProductService.UpdateProduct(db, id, req, caller, now);
      (Respond(t.result, 200), t.db)
  }

  /**
   * A registered caller's valid update of a product that is missing or someone else's is a 404:
   * "not found" outranks "access denied" in the same message.
   */
  lemma ForeignProductUpdateIs404(db: Db, id: Uuid, req: ProductUpdateRequest, caller: string, now: Instant)
    requires ValidUpdateRequest(req) && UserService.FindUser(db, caller).Ok?
    requires id !in db.products || db.products[id].ownerId != UserService.FindUser(db, caller).value.id
    ensures StatusOf(UpdateProductEndpoint(db, id, req, caller, now).0) == 404
    ensures UpdateProductEndpoint(db, id, req, caller, now).1 == db
  {
    ProductNotFoundOrDeniedIs404();
  }

  /** `DELETE /v1/product/{id}`: `deleteProduct`, answered with 204. */
  function DeleteProductEndpoint(db: Db, id: Uuid, caller: string): (r: (HttpResult<()>, Db))
    ensures r.0.Success? <==> ProductService.DeleteProduct(db, id, caller).result.Ok?
    ensures r.0.Success? ==> r.0.status == 204 && r.1 == db.(products := db.products - {id})
    ensures r.0.Failure? ==> r.1 == db
  {
    var t := ProductService.DeleteProduct(db, id, caller);
    (Respond(t.result, 204), t.db)
  }

  /** An owner deleting a product that still has images gets a 500, and the product stays. */
  lemma DeleteProductWithImagesIs500(db: Db, id: Uuid, caller: string, image: Uuid)
    requires UserService.FindUser(db, caller).Ok?
    requires id in db.products && db.products[id].ownerId == UserService.FindUser(db, caller).value.id
    requires image in db.images && db.images[image].productId == id
    ensures StatusOf(DeleteProductEndpoint(db, id, caller).0) == 500
    ensures DeleteProductEndpoint(db, id, caller).1 == db
  {
    ProductService.DeleteWithImagesFails(db, id, caller, image);
  }

  // --------------------------------------------------------------- ImageController

  /** Whether Spring binds the multipart part as the `MultipartFile` the endpoint requires. */
  predicate BindsAsFile(part: Option<Upload>) {
    part.Some? && part.value.originalFilename.Some?
  }

  /**
   * `POST /v1/product/{productId}/image`: `uploadImage`, answered with 201. `part` is the
   * multipart part named `file`. Spring makes a `MultipartFile` only of a part that carries a
   * file name; the parameter is required, so when the part is absent or has no file name,
   * argument binding fails before the service runs and the generic handler answers 500.
   */
  function UploadImageEndpoint(db: Db, bucket: Bucket, productId: Uuid, part: Option<Upload>, caller: string,
                               millis: nat, fault: UploadFault, newId: Uuid, now: Instant)
    : (r: (HttpResult<ImageResponse>, Db, Bucket))
    ensures !BindsAsFile(part) ==> r == (Failure(Handle(MissingRequestPart("file"))), db, bucket)
    ensures BindsAsFile(part) ==>
      (r.0.Success? <==> ImageService.UploadImage(db, bucket, productId, part, caller, millis, fault, newId, now).result.Ok?)
    ensures r.0.Success? ==> r.0.status == 201
    ensures r.0.Failure? ==> r.1 == db
  {
    if !BindsAsFile(part) then (Failure(Handle(MissingRequestPart("file"))), db, bucket)
    else
      var t := ImageService.UploadImage(db, bucket, productId, part, caller, millis, fault, newId, now);
      (Respond(t.result, 201), t.db, t.bucket)
  }

  /** A request whose `file` part is absent or carries no file name is a 500 that touches neither store. */
  lemma MissingFilePartIs500(db: Db, bucket: Bucket, productId: Uuid, part: Option<Upload>, caller: string,
                             millis: nat, fault: UploadFault, newId: Uuid, now: Instant)
    requires part.None? || part.value.originalFilename.None?
    ensures var r := UploadImageEndpoint(db, bucket, productId, part, caller, millis, fault, newId, now);
      StatusOf(r.0) == 500 && r.0.response.body == ErrorBody("Internal server error") && r.1 == db && r.2 == bucket
  {
  }

  /** Uploading to someone else's product is a 403 and touches neither store. */
  lemma ForeignUploadIs403(db: Db, bucket: Bucket, productId: Uuid, file: Upload, caller: string,
                           millis: nat, fault: UploadFault, newId: Uuid, now: Instant)
    requires file.originalFilename.Some?
    requires ImageService.AcceptableImage(Some(file)) && productId in db.products && FindByEmail(db, caller).Some?
    requires db.products[productId].ownerId != FindByEmail(db, caller).value.id
    ensures var r := UploadImageEndpoint(db, bucket, productId, Some(file), caller, millis, fault, newId, now);
      StatusOf(r.0) == 403 && r.1 == db && r.2 == bucket
  {
    UploadDeniedIs403();
  }

  /** An upload whose named `file` part is empty is a 400 that touches neither store. */
  lemma EmptyFileIs400(db: Db, bucket: Bucket, productId: Uuid, file: Upload, caller: string,
                       millis: nat, fault: UploadFault, newId: Uuid, now: Instant)
    requires file.originalFilename.Some? && |file.bytes| == 0
    ensures var r := UploadImageEndpoint(db, bucket, productId, Some(file), caller, millis, fault, newId, now);
      StatusOf(r.0) == 400 && r.1 == db && r.2 == bucket
  {
    FileRequiredIs400();
  }

  /** `GET /v1/product/{productId}/image/{imageId}`: `getImageById`, answered with 200. */
  function GetImageEndpoint(db: Db, productId: Uuid, imageId: Uuid): (r: HttpResult<ImageResponse>)
    ensures r.Success? <==> imageId in db.images && db.images[imageId].productId == productId
    ensures imageId !in db.images ==> StatusOf(r) == 404
    ensures imageId in db.images && db.images[imageId].productId != productId ==> StatusOf(r) == 400
  {
    ImageNotFoundIs404(imageId);
    ImageProductMismatchIs400();
    Respond(ImageService.GetImageById(db, productId, imageId), 200)
  }

  /** `DELETE /v1/product/{productId}/image/{imageId}`: `deleteImage`, answered with 204. */
  function DeleteImageEndpoint(db: Db, bucket: Bucket, productId: Uuid, imageId: Uuid, caller: string,
                               fault: Option<string>): (r: (HttpResult<()>, Db, Bucket))
    ensures r.0.Success? <==> ImageService.DeleteImage(db, bucket, productId, imageId, caller, fault).result.Ok?
    ensures r.0.Success? ==> r.0.status == 204
    ensures (imageId in db.images && db.images[imageId].productId == productId && FindByEmail(db, caller).Some?
             && !ImageService.OwnsImageProduct(db, db.images[imageId], FindByEmail(db, caller).value)) ==>
      StatusOf(r.0) == 403 && r.1 == db && r.2 == bucket
    ensures imageId in db.images && db.images[imageId].productId != productId ==> StatusOf(r.0) == 400
  {
    DeleteDeniedIs403();
    ImageProductMismatchIs400();
    var t := ImageService.DeleteImage(db, bucket, productId, imageId, caller, fault);
    (Respond(t.result, 204), t.db, t.bucket)
  }
}

=== FILE: dto.dfy ===
/**
 * Request bodies with the validation `@Valid` applies to them, and the response projections of
 * the entities.
 */
module Dto {
  import opened Wrappers
  import opened Text
  import opened Exceptions
  import opened Entities

  /** `@NotBlank` on a nullable string: present and not blank. */
  predicate NotBlank(s: Option<string>) {
    s.Some? && !IsBlank(s.value)
  }

  /** Body of `POST /v1/product`; every field may be absent (`null`) in the JSON. */
  datatype ProductCreateRequest = ProductCreateRequest(
    name: Option<string>,
    description: Option<string>,
    sku: Option<string>,
    manufacturer: Option<string>,
    quantity: Option<Int32>)

  /** The violations `@Valid` reports for a create request, one per offending field. */
  function CreateRequestErrors(r: ProductCreateRequest): (errs: seq<FieldError>)
    ensures forall e <- errs :: e.field in {"name", "sku", "manufacturer", "quantity"}
  {
    (if NotBlank(r.name) then [] else [FieldError("name", "Product name is required")])
    + (if NotBlank(r.sku) then [] else [FieldError("sku", "SKU is required")])
    + (if NotBlank(r.manufacturer) then [] else [FieldError("manufacturer", "Manufacturer is required")])
    + (if r.quantity.None? then [FieldError("quantity", "Quantity is required")]
       else if r.quantity.value < 0 then [FieldError("quantity", "Quantity cannot be less than 0")]
       else [])
  }

  predicate ValidCreateRequest(r: ProductCreateRequest) {
    CreateRequestErrors(r) == []
  }

  /**
   * A create request passes validation exactly when name, sku and manufacturer are non-blank and
   * a quantity of at least 0 is present; the description is free.
   */
  lemma ValidCreateRequestIff(r: ProductCreateRequest)
    ensures ValidCreateRequest(r) <==>
      && NotBlank(r.name) && NotBlank(r.sku) && NotBlank(r.manufacturer)
      && r.quantity.Some? && r.quantity.value >= 0
  {
  }

  /** Body of `PUT /v1/product/{id}`: every field is optional. */
  datatype ProductUpdateRequest = ProductUpdateRequest(
    name: Option<string>,
    description: Option<string>,
    sku: Option<string>,
    manufacturer: Option<string>,
    quantity: Option<Int32>)

  /** Only the quantity is constrained (`@Min(0)`, which accepts `null`); blank strings pass. */
  function UpdateRequestErrors(r: ProductUpdateRequest): (errs: seq<FieldError>)
    ensures errs == [] <==> (r.quantity.None? || r.quantity.value >= 0)
    ensures forall e <- errs :: e.field == "quantity"
  {
    if r.quantity.Some? && r.quantity.value < 0 then
      [FieldError("quantity", "Quantity cannot be less than 0")]
    else
      []
  }

  predicate ValidUpdateRequest(r: ProductUpdateRequest) {
    UpdateRequestErrors(r) == []
  }

  /** Body of `POST /v1/user`. Its class is not part of this model; no constraint is assumed. */
  datatype UserCreateRequest = UserCreateRequest(
    email: string,
    password: string,
    firstName: string,
    lastName: string)

  /** Body of `PUT /v1/user/{id}`: optional names and password, and no email field at all. */
  datatype UserUpdateRequest = UserUpdateRequest(
    firstName: Option<string>,
    lastName: Option<string>,
    password: Option<string>)

  /** `@Size(min = 8)` on the password, which accepts `null`. */
  function UserUpdateErrors(r: UserUpdateRequest): (errs: seq<FieldError>)
    ensures errs == [] <==> (r.password.None? || |r.password.value| >= 8)
    ensures forall e <- errs :: e.field == "password"
  {
    if r.password.Some? && |r.password.value| < 8 then
      [FieldError("password", "Password must be at least 8 characters")]
    else
      []
  }

  predicate ValidUserUpdate(r: UserUpdateRequest) {
    UserUpdateErrors(r) == []
  }

  /** A JSON member value as Jackson sees it when binding a `String` property. */
  datatype Json =
    | JText(text: string)  // a string, or a number or boolean that Jackson coerces to text
    | JNull
    | JStructured          // an object or an array

  /** The properties `UserUpdateRequest` declares. */
  predicate IsUserUpdateProperty(key: string) {
    key == "firstName" || key == "lastName" || key == "password"
  }

  function SetUserUpdateProperty(r: UserUpdateRequest, key: string, v: Option<string>): UserUpdateRequest
    requires IsUserUpdateProperty(key)
  {
    if key == "firstName" then r.(firstName := v)
    else if key == "lastName" then r.(lastName := v)
    else r.(password := v)
  }

  /**
   * Jackson binding of a JSON object, member by member in document order, onto a
   * `UserUpdateRequest` annotated `@JsonIgnoreProperties(ignoreUnknown = false)`: an unknown
   * property or a structured value for a text property stops the binding. Jackson's
   * `UnrecognizedPropertyException` reaches the web layer wrapped by Spring's message converter
   * in an `HttpMessageNotReadableException` ("JSON parse error: ..."), so both failures are
   * unreadable-body errors.
   */
  function BindUserUpdateFrom(acc: UserUpdateRequest, members: seq<(string, Json)>): (r: Outcome<UserUpdateRequest>)
    ensures r.Ok? ==> forall m <- members :: IsUserUpdateProperty(m.0) && !m.1.JStructured?
    ensures (exists m <- members :: !IsUserUpdateProperty(m.0)) ==> r.Err?
    ensures r.Err? ==> r.error.HttpMessageNotReadable?
    decreases |members|
  {
    if members == [] then Ok(acc)
    else
      var (key, value) := members[0];
      if !IsUserUpdateProperty(key) then
        Err(HttpMessageNotReadable("JSON parse error: Unrecognized field \"" + key + "\""))
      else
        match value
        case JStructured => Err(HttpMessageNotReadable("JSON parse error: Cannot deserialize value of type `java.lang.String`"))
        case JNull => BindUserUpdateFrom(SetUserUpdateProperty(acc, key, None), members[1..])
        case JText(t) => BindUserUpdateFrom(SetUserUpdateProperty(acc, key, Some(t)), members[1..])
  }

  function BindUserUpdate(members: seq<(string, Json)>): Outcome<UserUpdateRequest> {
    BindUserUpdateFrom(UserUpdateRequest(None, None, None), members)
  }

  /**
   * A body that names any property other than firstName, lastName and password (for instance
   * `email`, `id` or `accountCreated`) is rejected before it reaches the service.
   */
  lemma UnknownPropertyRejected(members: seq<(string, Json)>, i: nat)
    requires i < |members| && !IsUserUpdateProperty(members[i].0)
    ensures BindUserUpdate(members).Err?
  {
    assert members[i] in members;
  }

  /** What the product endpoints return: every column, with the owner reduced to its id. */
  datatype ProductResponse = ProductResponse(
    id: Uuid,
    name: string,
    description: Option<string>,
    sku: string,
    manufacturer: string,
    quantity: Int32,
    dateAdded: Instant,
    dateLastUpdated: Instant,
    ownerUserId: Uuid)

  /** What the user endpoints return: no password. */
  datatype UserResponse = UserResponse(
    id: Uuid,
    email: string,
    firstName: string,
    lastName: string,
    accountCreated: Instant,
    accountUpdated: Instant)

  /** What the image endpoints return. */
  datatype ImageResponse = ImageResponse(
    imageId: Uuid,
    productId: Uuid,
    fileName: string,
    dateCreated: Option<Instant>,  // `null` when built from an entity not yet inserted
    s3BucketPath: string)

  /** `ImageResponse.from(image)` of a stored row. */
  function ImageResponseFrom(i: Image): (r: ImageResponse)
    ensures r.productId == i.productId && r.imageId == i.imageId
    ensures r.dateCreated == Some(i.dateCreated)
  {
    ImageResponse(i.imageId, i.productId, i.fileName, Some(i.dateCreated), i.s3BucketPath)
  }

  /**
   * `ImageResponse.from(image)` of an entity whose INSERT has not run yet: Hibernate fills
   * `@CreationTimestamp` only when the row is written, so the creation time is still `null`
   * while every other column is already the one the row will hold.
   */
  function ImageResponseFromUnflushed(i: Image): (r: ImageResponse)
    ensures r.dateCreated.None?
    ensures r.(dateCreated := Some(i.dateCreated)) == ImageResponseFrom(i)
  {
    ImageResponse(i.imageId, i.productId, i.fileName, None, i.s3BucketPath)
  }

  /** The inverse projection: an image response with a creation time determines its image row. */
  function ImageOfResponse(r: ImageResponse): Image
    requires r.dateCreated.Some?
  {
    Image(r.imageId, r.productId, r.fileName, r.dateCreated.value, r.s3BucketPath)
  }

  /** `ImageResponse.from` copies every column unchanged, so it loses nothing. */
  lemma ImageResponseRoundTrip(i: Image)
    ensures ImageOfResponse(ImageResponseFrom(i)) == i
  {
  }
}

=== FILE: entities.dfy ===
/**
 * The three persistent entities (`users`, `products`, `images`) and the bean-validation
 * constraints declared on their fields.
 */
module Entities {
  import opened Wrappers
  import opened Text

  predicate IsHexDigit(c: char) {
    '0' <= c <= '9' || 'a' <= c <= 'f'
  }

  /** The canonical `UUID.toString()` form: 8-4-4-4-12 lower-case hex digits. */
  predicate IsUuidText(s: string) {
    && |s| == 36
    && forall k | 0 <= k < 36 ::
         if k == 8 || k == 13 || k == 18 || k == 23 then s[k] == '-' else IsHexDigit(s[k])
  }

  /** A `java.util.UUID`, identified with its canonical text. */
  type Uuid = s: string | IsUuidText(s) witness "00000000-0000-0000-0000-000000000000"

  /** The text of a UUID holds neither a `/` nor a blank. */
  lemma UuidTextIsPlain(u: Uuid)
    ensures forall k | 0 <= k < |u| :: u[k] != '/' && u[k] != ' '
  {
  }

  /** A timestamp the database writes (`@CreationTimestamp`, `@UpdateTimestamp`). */
  type Instant = nat

  /** A Java `Integer`. */
  type Int32 = x: int | -0x8000_0000 <= x < 0x8000_0000

  /** A row of `users`; `password` holds the encoded password. */
  datatype User = User(
    id: Uuid,
    email: string,
    password: string,
    firstName: string,
    lastName: string,
    accountCreated: Instant,
    accountUpdated: Instant)

  /**
   * The bean-validation constraints of `User`: `@NotBlank` email, names and password, and
   * `@Size(min = 8)` password. The `@Email` format check is not part of this model.
   */
  predicate ValidUser(u: User) {
    && !IsBlank(u.email)
    && !IsBlank(u.password) && |u.password| >= 8
    && !IsBlank(u.firstName)
    && !IsBlank(u.lastName)
  }

  /** A row of `products`; `ownerId` is the `owner_user_id` foreign key. */
  datatype Product = Product(
    id: Uuid,
    name: string,
    description: Option<string>,
    sku: string,
    manufacturer: string,
    quantity: Int32,
    dateAdded: Instant,
    dateLastUpdated: Instant,
    ownerId: Uuid)

  /** `@NotBlank` name, sku and manufacturer, `@Min(0)` quantity. */
  predicate ValidProduct(p: Product) {
    && !IsBlank(p.name)
    && !IsBlank(p.sku)
    && !IsBlank(p.manufacturer)
    && p.quantity >= 0
  }

  /** A row of `images`; `productId` is the `product_id` foreign key. */
  datatype Image = Image(
    imageId: Uuid,
    productId: Uuid,
    fileName: string,
    dateCreated: Instant,
    s3BucketPath: string)

  /** `@NotBlank` file name and blob key. */
  predicate ValidImage(i: Image) {
    !IsBlank(i.fileName) && !IsBlank(i.s3BucketPath)
  }
}

=== FILE: exceptions.dfy ===
/**
 * The exceptions that reach the web layer, by class. The services signal every business-rule
 * failure with an `IllegalArgumentException` whose message the exception handler inspects; the
 * remaining classes come from the blob store, the persistence layer and the web framework.
 */
module Exceptions {
  import opened Wrappers

  /** One rejected field of a `@Valid` request body and its constraint's default message. */
  datatype FieldError = FieldError(field: string, message: string)

  datatype Exception =
    | IllegalArgument(message: string)
      /** `RuntimeException` wrapping an S3 or I/O failure. */
    | Runtime(message: string)
      /** Bean validation of an entity on persist (`@NotBlank`, `@Min`, `@Size`, ...). */
    | ConstraintViolation(message: string)
      /** A unique or foreign-key constraint of the schema rejected a write. */
    | DataIntegrityViolation(message: string)
      /** A controller dereferenced an absent `Authentication`. */
    | NullPointer
    | MethodArgumentNotValid(fieldErrors: seq<FieldError>)
    | NoResourceFound(message: string)
    | HttpMessageNotReadable(message: string)
    | MethodArgumentTypeMismatch(message: string)
    | UnrecognizedProperty(message: string)
    | MethodNotSupported(httpMethod: string)
      /** A required `@RequestParam` multipart part is absent (`MissingServletRequestPartException`). */
    | MissingRequestPart(partName: string)

  /** What a service call returns: a value, or the exception it throws. */
  type Outcome<T> = Result<T, Exception>
}

=== FILE: handler.dfy ===
/**
 * `GlobalExceptionHandler`: how an exception that escapes a controller becomes an HTTP status
 * and a JSON body.
 */
module Handler {
  import opened Text
  import opened Exceptions

  /** The JSON body of an error response. */
  datatype Body =
    | ErrorBody(error: string)
    | ValidationBody(error: string, fieldErrors: map<string, string>)

  datatype Response = Response(status: int, body: Body)

  /** The phrases that make a business-rule message a 403. */
  predicate ForbiddenPhrase(lower: string) {
    || Contains(lower, "access denied")
    || Contains(lower, "can only update their own")
    || Contains(lower, "can only view their own")
  }

  /**
   * `determineHttpStatus`: a substring test on the lower-cased message, in precedence order.
   * "already exists" has a branch of its own but shares the 400 of the fallback.
   */
  function DetermineHttpStatus(message: string): (status: int)
    ensures status == 400 || status == 403 || status == 404
    ensures status == 404 <==> Contains(Lower(message), "not found")
    ensures status == 403 <==> !Contains(Lower(message), "not found") && ForbiddenPhrase(Lower(message))
  {
    var lower := Lower(message);
    if Contains(lower, "not found") then 404
    else if ForbiddenPhrase(lower) then 403
    else if Contains(lower, "already exists") then 400
    else 400
  }

  /** A message that reports a duplicate never yields 409; it yields 400 unless it also names a 404 or 403 phrase. */
  lemma AlreadyExistsIsBadRequest(message: string)
    requires Contains(Lower(message), "already exists")
    requires !Contains(Lower(message), "not found") && !ForbiddenPhrase(Lower(message))
    ensures DetermineHttpStatus(message) == 400
  {
  }

  /**
   * `buildValidationErrorResponse`'s field map: each rejected field maps to the message of its
   * last error, because a later `put` replaces an earlier one.
   */
  function FieldErrorMap(errs: seq<FieldError>): (m: map<string, string>)
    ensures forall f :: f in m <==> exists i | 0 <= i < |errs| :: errs[i].field == f
    ensures forall i | 0 <= i < |errs| ::
      (forall j | i < j < |errs| :: errs[j].field != errs[i].field) ==> m[errs[i].field] == errs[i].message
    decreases |errs|
  {
    if errs == [] then map[]
    else
      var init, last := errs[..|errs| - 1], errs[|errs| - 1];
      assert forall i | 0 <= i < |init| :: init[i] == errs[i];
      FieldErrorMap(init)[last.field := last.message]
  }

  /** The handler `@ExceptionHandler` selects for `e`, as a response. */
  function Handle(e: Exception): (r: Response)
    ensures r.status in {400, 403, 404, 405, 500}
    ensures r.status == 500 <==>
      e.Runtime? || e.ConstraintViolation? || e.DataIntegrityViolation? || e.NullPointer? || e.MissingRequestPart?
    ensures r.status == 500 ==> r.body == ErrorBody("Internal server error")
    ensures e.IllegalArgument? ==> r == Response(DetermineHttpStatus(e.message), ErrorBody(e.message))
    ensures r.body.ValidationBody? <==> e.MethodArgumentNotValid?
    ensures e.MethodArgumentNotValid? ==>
      r == Response(400, ValidationBody("Validation failed", FieldErrorMap(e.fieldErrors)))
    ensures e.NoResourceFound? ==> r == Response(404, ErrorBody(e.message))
    ensures e.HttpMessageNotReadable? || e.MethodArgumentTypeMismatch? || e.UnrecognizedProperty? ==>
      r == Response(400, ErrorBody(e.message))
    ensures e.MethodNotSupported? ==> r == Response(405, ErrorBody("Method Not Allowed"))
  {
    match e
    case IllegalArgument(m) => Response(DetermineHttpStatus(m), ErrorBody(m))
    case MethodArgumentNotValid(errs) => Response(400, ValidationBody("Validation failed", FieldErrorMap(errs)))
    case NoResourceFound(m) => Response(404, ErrorBody(m))
    case HttpMessageNotReadable(m) => Response(400, ErrorBody(m))
    case MethodArgumentTypeMismatch(m) => Response(400, ErrorBody(m))
    case UnrecognizedProperty(m) => Response(400, ErrorBody(m))
    case MethodNotSupported(_) => Response(405, ErrorBody("Method Not Allowed"))
    case Runtime(_) => Response(500, ErrorBody("Internal server error"))
    case ConstraintViolation(_) => Response(500, ErrorBody("Internal server error"))
    case DataIntegrityViolation(_) => Response(500, ErrorBody("Internal server error"))
    case NullPointer => Response(500, ErrorBody("Internal server error"))
    case MissingRequestPart(_) => Response(500, ErrorBody("Internal server error"))
  }

  /** A request body that fails `@Valid` is a 400 whose field map names every rejected field. */
  lemma ValidationFailureNamesEveryField(errs: seq<FieldError>, i: nat)
    requires i < |errs|
    ensures Handle(MethodArgumentNotValid(errs)).status == 400
    ensures errs[i].field in Handle(MethodArgumentNotValid(errs)).body.fieldErrors
  {
  }
}

=== FILE: image_service.dfy ===
/**
 * `ImageService`: image upload with file validation and an owner check, the public image reads,
 * and the two deletes. The bucket is not transactional: a failed database write after a
 * successful upload leaves the object behind, and a failed object delete does not stop the row
 * from going.
 */
module ImageService {
  import opened Wrappers
  import opened Text
  import opened Exceptions
  import opened Entities
  import opened Dto
  import opened Repositories
  import opened Messages
  import opened Blobs

  /** What an image operation leaves behind: its outcome, the database and the bucket. */
  datatype BlobTx<T> = BlobTx(result: Outcome<T>, db: Db, bucket: Bucket)

  /** `ALLOWED_CONTENT_TYPES`, compared against the lower-cased content type. */
  const AllowedContentTypes: seq<string> := ["image/jpeg", "image/jpg", "image/png"]

  /** The upload has bytes and a content type whose lower-case form is allowed. */
  predicate AcceptableImage(file: Option<Upload>) {
    && file.Some? && |file.value.bytes| > 0
    && file.value.contentType.Some? && Lower(file.value.contentType.value) in AllowedContentTypes
  }

  /** `validateImageFile`: a missing or empty file, then a missing or disallowed content type. */
  function ValidateImageFile(file: Option<Upload>): (r: Outcome<()>)
    ensures r.Ok? <==> AcceptableImage(file)
    ensures file.None? || |file.value.bytes| == 0 ==> r == Err(IllegalArgument(FileRequired()))
    ensures file.Some? && |file.value.bytes| > 0 && r.Err? ==>
      r == Err(IllegalArgument(InvalidFileType(NullableText(file.value.contentType))))
  {
    if file.None? || |file.value.bytes| == 0 then Err(IllegalArgument(FileRequired()))
    else if file.value.contentType.None? || Lower(file.value.contentType.value) !in AllowedContentTypes then
      Err(IllegalArgument(InvalidFileType(NullableText(file.value.contentType))))
    else Ok(())
  }

  lemma LowerIdempotent(s: string)
    ensures Lower(Lower(s)) == Lower(s)
  {
  }

  /**
   * The content-type check ignores letter case: a type is accepted exactly when its lower-case
   * form is.
   */
  lemma ContentTypeCaseInsensitive(name: Option<string>, contentType: string, bytes: seq<Byte>)
    ensures ValidateImageFile(Some(Upload(name, Some(contentType), bytes))).Ok?
        <==> ValidateImageFile(Some(Upload(name, Some(Lower(contentType)), bytes))).Ok?
  {
    LowerIdempotent(contentType);
  }

  /** Upper-case `IMAGE/PNG` is accepted; `image/gif` is not. */
  lemma ContentTypeExamples(bytes: seq<Byte>)
    requires |bytes| > 0
    ensures ValidateImageFile(Some(Upload(None, Some("IMAGE/PNG"), bytes))).Ok?
    ensures ValidateImageFile(Some(Upload(None, Some("image/gif"), bytes))).Err?
  {
    assert Lower("IMAGE/PNG") == "image/png";
    assert Lower("image/gif") == "image/gif";
    assert "image/gif" != AllowedContentTypes[0] && "image/gif" != AllowedContentTypes[1]
        && "image/gif" != AllowedContentTypes[2] by {
      assert "image/gif"[6] != AllowedContentTypes[0][6];
      assert "image/gif"[6] != AllowedContentTypes[1][6];
      assert "image/gif"[6] != AllowedContentTypes[2][6];
    }
  }

  /** An object key always contains a '/', so it is never blank. */
  lemma BlobKeyNotBlank(key: string)
    requires ParseBlobKey(key).Some?
    ensures !IsBlank(key)
  {
    assert !IsTrimmable(key[36]);
  }

  /** The checks `uploadImage` makes before it touches the bucket all pass. */
  predicate MayUpload(db: Db, productId: Uuid, file: Option<Upload>, caller: string) {
    && AcceptableImage(file)
    && productId in db.products
    && FindByEmail(db, caller).Some?
    && db.products[productId].ownerId == FindByEmail(db, caller).value.id
  }

  /**
   * `uploadImage`: validation, the product, the caller, and ownership are checked in that order;
   * then the file is stored under `<owner>/<product>/<millis>-<name>` and the image row is saved.
   * `millis` is the upload clock, `fault` how the store answers, `newId` and `now` the id and
   * creation time the database assigns. The row is saved without a flush, so the response is
   * built before the creation time is filled in.
   */
  function UploadImage(db: Db, bucket: Bucket, productId: Uuid, file: Option<Upload>, caller: string,
                       millis: nat, fault: UploadFault, newId: Uuid, now: Instant): (t: BlobTx<ImageResponse>)
    ensures t.result.Err? ==> t.db == db
    ensures ValidateImageFile(file).Err? ==> t == BlobTx(Err(ValidateImageFile(file).error), db, bucket)
    ensures AcceptableImage(file) && productId !in db.products ==>
      t == BlobTx(Err(IllegalArgument(ProductNotFoundWithId(productId))), db, bucket)
    ensures AcceptableImage(file) && productId in db.products && FindByEmail(db, caller).None? ==>
      t == BlobTx(Err(IllegalArgument(UserNotFound(caller))), db, bucket)
    ensures (AcceptableImage(file) && productId in db.products && FindByEmail(db, caller).Some?
             && db.products[productId].ownerId != FindByEmail(db, caller).value.id) ==>
      t == BlobTx(Err(IllegalArgument(UploadDenied())), db, bucket)
    ensures !fault.Stored? ==> t.result.Err? && t.bucket == bucket
    ensures t.bucket != bucket ==> MayUpload(db, productId, file, caller) && fault.Stored?
    ensures MayUpload(db, productId, file, caller) && fault.Stored? ==>
      && var key := BlobKey(db.products[productId].ownerId, productId, millis, file.value.originalFilename);
      && t.bucket == bucket[key := Blob(file.value.contentType, file.value.bytes)]
    ensures t.result.Ok? ==>
      && MayUpload(db, productId, file, caller) && fault.Stored?
      && file.value.originalFilename.Some?
      && var name := file.value.originalFilename.value;
      && var key := t.result.value.s3BucketPath;
      && ParseBlobKey(key) == Some(KeyParts(db.products[productId].ownerId, productId, millis, name))
      && t.db == db.(images := db.images[newId := Image(newId, productId, name, now, key)])
      && t.result.value == ImageResponseFromUnflushed(Image(newId, productId, name, now, key))
      && t.result.value.dateCreated.None?
  {
    match ValidateImageFile(file)
    case Err(e) => BlobTx(Err(e), db, bucket)
    case Ok(_) =>
      if productId !in db.products then
        BlobTx(Err(IllegalArgument(ProductNotFoundWithId(productId))), db, bucket)
      else
        match FindByEmail(db, caller)
        case None => BlobTx(Err(IllegalArgument(UserNotFound(caller))), db, bucket)
        case Some(user) =>
          if db.products[productId].ownerId != user.id then
            BlobTx(Err(IllegalArgument(UploadDenied())), db, bucket)
          else
            var (stored, after) := UploadFile(bucket, file.value, user.id, productId, millis, fault);
            match stored
            case Err(e) => BlobTx(Err(e), db, after)
            case Ok(key) =>
              match file.value.originalFilename
              case None => BlobTx(Err(ConstraintViolation("images")), db, after)
              case Some(name) =>
                var image := Image(newId, productId, name, now, key);
                match InsertImage(db, image)
                case Err(e) => BlobTx(Err(e), db, after)
                case Ok(saved) => BlobTx(Ok(ImageResponseFromUnflushed(image)), saved, after)
  }

  /**
   * In a valid store, an owner's upload of an acceptable, named file under a fresh id succeeds,
   * keeps the store valid, and the stored key names the owner and the product.
   */
  lemma UploadImageSucceeds(db: Db, bucket: Bucket, productId: Uuid, file: Option<Upload>, caller: string,
                            millis: nat, newId: Uuid, now: Instant)
    requires Valid(db) && MayUpload(db, productId, file, caller) && newId !in db.images
    requires file.value.originalFilename.Some? && !IsBlank(file.value.originalFilename.value)
    ensures UploadImage(db, bucket, productId, file, caller, millis, Stored, newId, now).result.Ok?
    ensures Valid(UploadImage(db, bucket, productId, file, caller, millis, Stored, newId, now).db)
  {
    var owner := db.products[productId].ownerId;
    var key := BlobKey(owner, productId, millis, file.value.originalFilename);
    BlobKeyRoundTrip(owner, productId, millis, file.value.originalFilename);
    BlobKeyNotBlank(key);
  }

  /**
   * An upload without a file name stores the object and then fails bean validation on the
   * image row: the object stays in the bucket with no row pointing at it.
   */
  lemma UnnamedUploadOrphansBlob(db: Db, bucket: Bucket, productId: Uuid, file: Option<Upload>, caller: string,
                                 millis: nat, newId: Uuid, now: Instant)
    requires MayUpload(db, productId, file, caller) && file.value.originalFilename.None?
    ensures var t := UploadImage(db, bucket, productId, file, caller, millis, Stored, newId, now);
      && t.result == Err(ConstraintViolation("images")) && t.db == db
      && BlobKey(db.products[productId].ownerId, productId, millis, None) in t.bucket
  {
  }

  /** `getProductImages`: the product must exist; then exactly its images. */
  function GetProductImages(db: Db, productId: Uuid): (r: Outcome<map<Uuid, ImageResponse>>)
    ensures r.Err? <==> productId !in db.products
    ensures r.Err? ==> r.error == IllegalArgument(ProductNotFoundWithId(productId))
    ensures r.Ok? ==> forall k :: k in r.value <==> k in db.images && db.images[k].productId == productId
    ensures r.Ok? ==> forall k | k in r.value ::
      r.value[k].dateCreated.Some? && ImageOfResponse(r.value[k]) == db.images[k]
  {
    if productId !in db.products then Err(IllegalArgument(ProductNotFoundWithId(productId)))
    else
      var images := FindByProduct(db, productId);
      Ok(map k | k in images :: ImageResponseFrom(images[k]))
  }

  /** `getImageById`: the image must exist and belong to the product in the path. */
  function GetImageById(db: Db, productId: Uuid, imageId: Uuid): (r: Outcome<ImageResponse>)
    ensures r.Ok? <==> imageId in db.images && db.images[imageId].productId == productId
    ensures r.Ok? ==> r.value.dateCreated.Some? && ImageOfResponse(r.value) == db.images[imageId]
    ensures imageId !in db.images ==> r == Err(IllegalArgument(ImageNotFound(imageId)))
    ensures imageId in db.images && db.images[imageId].productId != productId ==>
      r == Err(IllegalArgument(ImageProductMismatch()))
  {
    if imageId !in db.images then Err(IllegalArgument(ImageNotFound(imageId)))
    else if db.images[imageId].productId != productId then Err(IllegalArgument(ImageProductMismatch()))
    else Ok(ImageResponseFrom(db.images[imageId]))
  }

  /** An image read through one product is listed among that product's images, unchanged. */
  lemma ImageByIdIsListed(db: Db, productId: Uuid, imageId: Uuid)
    requires productId in db.products && GetImageById(db, productId, imageId).Ok?
    ensures imageId in GetProductImages(db, productId).value
    ensures GetProductImages(db, productId).value[imageId] == GetImageById(db, productId, imageId).value
  {
  }

  /**
   * The upload answers before the row is written, so its body has no creation time; reading
   * the image back afterwards gives the same columns with the creation time the row received.
   */
  lemma UploadResponseLacksCreationTime(db: Db, bucket: Bucket, productId: Uuid, file: Option<Upload>,
                                        caller: string, millis: nat, fault: UploadFault, newId: Uuid, now: Instant)
    requires UploadImage(db, bucket, productId, file, caller, millis, fault, newId, now).result.Ok?
    ensures var t := UploadImage(db, bucket, productId, file, caller, millis, fault, newId, now);
      && t.result.value.dateCreated.None?
      && GetImageById(t.db, productId, newId) == Ok(t.result.value.(dateCreated := Some(now)))
  {
  }

  /** The product owner of an image, when its product row is present. */
  predicate OwnsImageProduct(db: Db, image: Image, user: User) {
    image.productId in db.products && db.products[image.productId].ownerId == user.id
  }

  /**
   * `deleteImage`: the image must exist, belong to the product in the path, and the caller must
   * own that product. The object delete may fail (`fault`); the failure is logged and the row
   * is deleted regardless.
   */
  function DeleteImage(db: Db, bucket: Bucket, productId: Uuid, imageId: Uuid, caller: string,
                       fault: Option<string>): (t: BlobTx<()>)
    ensures t.result.Err? ==> t.db == db && t.bucket == bucket
    ensures imageId !in db.images ==> t.result == Err(IllegalArgument(ImageNotFound(imageId)))
    ensures imageId in db.images && db.images[imageId].productId != productId ==>
      t.result == Err(IllegalArgument(ImageProductMismatch()))
    ensures imageId in db.images && db.images[imageId].productId == productId && FindByEmail(db, caller).None? ==>
      t.result == Err(IllegalArgument(UserNotFound(caller)))
    ensures (imageId in db.images && db.images[imageId].productId == productId && FindByEmail(db, caller).Some?
             && !OwnsImageProduct(db, db.images[imageId], FindByEmail(db, caller).value)) ==>
      t.result == Err(IllegalArgument(DeleteDenied()))
    ensures t.result.Ok? <==>
      && imageId in db.images && db.images[imageId].productId == productId
      && FindByEmail(db, caller).Some? && OwnsImageProduct(db, db.images[imageId], FindByEmail(db, caller).value)
    ensures t.result.Ok? ==>
      && t.db == db.(images := db.images - {imageId})
      && var key := db.images[imageId].s3BucketPath;
      && (fault.None? ==> t.bucket == bucket - {key})
      && (fault.Some? ==> t.bucket == bucket)
  {
    if imageId !in db.images then BlobTx(Err(IllegalArgument(ImageNotFound(imageId))), db, bucket)
    else
      var image := db.images[imageId];
      if image.productId != productId then BlobTx(Err(IllegalArgument(ImageProductMismatch())), db, bucket)
      else
        match FindByEmail(db, caller)
        case None => BlobTx(Err(IllegalArgument(UserNotFound(caller))), db, bucket)
        case Some(user) =>
          if !OwnsImageProduct(db, image, user) then BlobTx(Err(IllegalArgument(DeleteDenied())), db, bucket)
          else
            var (_, after) := DeleteFile(bucket, image.s3BucketPath, fault);
            BlobTx(Ok(()), DeleteImageRow(db, imageId), after)
  }

  /** A failing object store does not change whether, or what, `deleteImage` deletes from the database. */
  lemma DeleteImageIgnoresStoreFailure(db: Db, bucket: Bucket, productId: Uuid, imageId: Uuid, caller: string,
                                       message: string)
    ensures DeleteImage(db, bucket, productId, imageId, caller, Some(message)).result
         == DeleteImage(db, bucket, productId, imageId, caller, None).result
    ensures DeleteImage(db, bucket, productId, imageId, caller, Some(message)).db
         == DeleteImage(db, bucket, productId, imageId, caller, None).db
  {
  }

  /** The object keys of `images` whose delete the store does not refuse. */
  function RemovablePaths(images: map<Uuid, Image>, failures: map<string, string>): set<string> {
    set k | k in images && images[k].s3BucketPath !in failures :: images[k].s3BucketPath
  }

  /** The removable object keys of the images in `done`. */
  function PathsOf(images: map<Uuid, Image>, done: set<Uuid>, failures: map<string, string>): set<string> {
    set k | k in images && k in done && images[k].s3BucketPath !in failures :: images[k].s3BucketPath
  }

  /** The bucket without the objects under `keys`. */
  function Without(bucket: Bucket, keys: set<string>): (r: Bucket)
    ensures forall k :: k in r <==> k in bucket && k !in keys
    ensures forall k | k in r :: r[k] == bucket[k]
  {
    map k | k in bucket && k !in keys :: bucket[k]
  }

  /**
   * `deleteProductImages`: every image object of the product is deleted from the bucket, one at a
   * time, ignoring failures; then every image row of the product is deleted. `failures` maps
   * each object key the store refuses to its error message. It is keyed by path, not by call, so
   * two rows that share one `s3BucketPath` get the same answer from the store.
   */
  method DeleteProductImages(db: Db, bucket: Bucket, productId: Uuid, failures: map<string, string>)
    returns (t: BlobTx<()>)
    ensures productId !in db.products ==>
      t == BlobTx(Err(IllegalArgument(ProductNotFoundWithId(productId))), db, bucket)
    ensures productId in db.products ==> t.result.Ok? && t.db == DeleteByProduct(db, productId)
    ensures productId in db.products ==>
      t.bucket == Without(bucket, RemovablePaths(FindByProduct(db, productId), failures))
  {
    if productId !in db.products {
      return BlobTx(Err(IllegalArgument(ProductNotFoundWithId(productId))), db, bucket);
    }
    var b := RemoveObjects(bucket, FindByProduct(db, productId), failures);
    t := BlobTx(Ok(()), DeleteByProduct(db, productId), b);
  }

  /**
   * The loop of `deleteProductImages`: one `deleteFile` per image, each failure logged and
   * ignored, in whatever order the images come. The store's answer depends on the path alone.
   */
  method RemoveObjects(bucket: Bucket, images: map<Uuid, Image>, failures: map<string, string>) returns (b: Bucket)
    ensures b == Without(bucket, RemovablePaths(images, failures))
  {
    var remaining, done := images.Keys, {};
    b := bucket;
    WithoutNothing(bucket);
    while remaining != {}
      invariant remaining + done == images.Keys && remaining !! done
      invariant b == Without(bucket, PathsOf(images, done, failures))
      decreases |remaining|
    {
      var id :| id in remaining;
      var path := images[id].s3BucketPath;
      var fault := if path in failures then Some(failures[path]) else None;
      DeleteStep(images, done, id, failures, bucket, fault);
      var (_, after) := DeleteFile(b, path, fault);
      remaining, done := remaining - {id}, done + {id};
      b := after;
    }
    PathsOfAll(images, done, failures);
  }

  lemma WithoutNothing(bucket: Bucket)
    ensures Without(bucket, {}) == bucket
  {
  }

  lemma PathsOfAll(images: map<Uuid, Image>, done: set<Uuid>, failures: map<string, string>)
    requires done == images.Keys
    ensures PathsOf(images, done, failures) == RemovablePaths(images, failures)
  {
  }

  /**
   * Handling one more image removes its object, unless the store refuses, and otherwise leaves
   * the bucket as it was.
   */
  lemma DeleteStep(images: map<Uuid, Image>, done: set<Uuid>, id: Uuid, failures: map<string, string>,
                   bucket: Bucket, fault: Option<string>)
    requires id in images
    requires fault == if images[id].s3BucketPath in failures then Some(failures[images[id].s3BucketPath]) else None
    ensures DeleteFile(Without(bucket, PathsOf(images, done, failures)), images[id].s3BucketPath, fault).1
         == Without(bucket, PathsOf(images, done + {id}, failures))
  {
    var path := images[id].s3BucketPath;
    var p0, p1 := PathsOf(images, done, failures), PathsOf(images, done + {id}, failures);
    assert p1 == if path in failures then p0 else p0 + {path};
  }

  /** Once `deleteProductImages` has run, the product itself can be deleted. */
  lemma DeleteProductImagesUnblocksDelete(db: Db, productId: Uuid)
    ensures DeleteProductRow(DeleteByProduct(db, productId), productId).Ok?
  {
  }
}

=== FILE: messages.dfy ===
/**
 * The messages the services and `UserController` put into the `IllegalArgumentException`s they
 * throw. The exception handler derives the HTTP status from this text, so the text is part of
 * the observable contract. Long literals are written as short pieces.
 */
module Messages {

  // ----------------------------------------------------------------- UserService

  function UserEmailTaken(email: string): string {
    "User with email " + email + " already exists"
  }

  function UserIdNotFound(id: string): string {
    "User not found " + "with ID: " + id
  }

  function UserEmailNotFound(email: string): string {
    "User not found " + "with email: " + email
  }

  function OnlyOwnAccount(): string {
    "Users can only " + "update their own " + "account information"
  }

  function NoValidFields(): string {
    "No valid fields " + "provided for update"
  }

  // -------------------------------------------------------------- ProductService

  function SkuTaken(sku: string): string {
    "Product with SKU " + sku + " already exists"
  }

  function ProductIdNotFound(id: string): string {
    "Product not found " + "with ID: " + id
  }

  function ProductNotFoundOrDenied(): string {
    "Product not found " + "or access denied"
  }

  // ---------------------------------------------------------------- ImageService

  function FileRequired(): string {
    "File is required"
  }

  /** The rejected content type is rendered with `%s`, so an absent one reads `null`. */
  function InvalidFileType(contentType: string): string {
    "Invalid file type. " + "Only JPEG, JPG, " + "and PNG files are " + "allowed. Received: " + contentType
  }

  function ProductNotFoundWithId(id: string): string {
    "Product not found " + "with id: " + id
  }

  function UserNotFound(email: string): string {
    "User not found: " + email
  }

  function UploadDenied(): string {
    "Access denied: " + "You can only upload " + "images to your " + "own products"
  }

  function ImageNotFound(id: string): string {
    "Image not found " + "with id: " + id
  }

  function ImageProductMismatch(): string {
    "Image does not " + "belong to the " + "specified product"
  }

  function DeleteDenied(): string {
    "Access denied: " + "You can only delete " + "images from your " + "own products"
  }

  // -------------------------------------------------------------- UserController

  function ViewDenied(): string {
    "Access denied: " + "Users can only view " + "their own information"
  }
}

=== FILE: product_service.dfy ===
/**
 * `ProductService`: product creation under a unique SKU, public reads, and the owner-scoped
 * partial update and delete.
 */
module ProductService {
  import opened Wrappers
  import opened Text
  import opened Exceptions
  import opened Entities
  import opened Dto
  import opened Repositories
  import opened Messages
  import UserService

  /** `mapToResponse`: every column, with the owner reduced to its id. */
  function ToResponse(p: Product): ProductResponse {
    ProductResponse(p.id, p.name, p.description, p.sku, p.manufacturer, p.quantity,
                    p.dateAdded, p.dateLastUpdated, p.ownerId)
  }

  /** The response loses nothing of the row: it can be read back into the same product. */
  function ProductOfResponse(r: ProductResponse): Product {
    Product(r.id, r.name, r.description, r.sku, r.manufacturer, r.quantity,
            r.dateAdded, r.dateLastUpdated, r.ownerUserId)
  }

  lemma ResponseRoundTrip(p: Product)
    ensures ProductOfResponse(ToResponse(p)) == p
  {
  }

  /**
   * `createProduct`: the SKU check runs first, with the SKU exactly as sent; then the owner is
   * looked up by the caller's email; then the row is written, which fails bean validation for
   * an absent required field.
   */
  function CreateProduct(db: Db, req: ProductCreateRequest, caller: string, newId: Uuid, now: Instant): (t: Tx<ProductResponse>)
    ensures t.result.Err? ==> t.db == db
    ensures req.sku.Some? && ExistsBySku(db, req.sku.value) ==>
      t.result == Err(IllegalArgument(SkuTaken(req.sku.value)))
    ensures t.result.Ok? ==>
      && UserService.FindUser(db, caller).Ok?
      && var owner := UserService.FindUser(db, caller).value;
      && req.name.Some? && req.sku.Some? && req.manufacturer.Some? && req.quantity.Some?
      && var p := Product(newId, req.name.value, req.description, req.sku.value, req.manufacturer.value,
                          req.quantity.value, now, now, owner.id);
      && t.db == db.(products := db.products[newId := p])
      && t.result.value == ToResponse(p)
      && t.result.value.ownerUserId == owner.id
  {
    if req.sku.Some? && ExistsBySku(db, req.sku.value) then
      Tx(Err(IllegalArgument(SkuTaken(req.sku.value))), db)
    else
      match UserService.FindUser(db, caller)
      case Err(e) => Tx(Err(e), db)
      case Ok(owner) =>
        if req.name.None? || req.sku.None? || req.manufacturer.None? || req.quantity.None? then
          Tx(Err(ConstraintViolation("products")), db)
        else
          var p := Product(newId, req.name.value, req.description, req.sku.value, req.manufacturer.value,
                           req.quantity.value, now, now, owner.id);
          match SaveProduct(db, p, true)
          case Err(e) => Tx(Err(e), db)
          case Ok(after) => Tx(Ok(ToResponse(p)), after)
  }

  /**
   * In a valid store, a request that passed `@Valid` from a registered caller with a new SKU and
   * a fresh id creates the product, keeps the store valid, and the product reads back by id.
   */
  lemma CreateProductSucceeds(db: Db, req: ProductCreateRequest, caller: string, newId: Uuid, now: Instant)
    requires Valid(db) && ValidCreateRequest(req)
    requires ExistsByEmail(db, caller) && !ExistsBySku(db, req.sku.value) && newId !in db.products
    ensures CreateProduct(db, req, caller, newId, now).result.Ok?
    ensures Valid(CreateProduct(db, req, caller, newId, now).db)
    ensures GetProductById(CreateProduct(db, req, caller, newId, now).db, newId)
         == CreateProduct(db, req, caller, newId, now).result
  {
    ValidCreateRequestIff(req);
    var owner := UserService.FindUser(db, caller).value;
    FindByEmailIsStored(db, caller);
    var p := Product(newId, req.name.value, req.description, req.sku.value, req.manufacturer.value,
                     req.quantity.value, now, now, owner.id);
    assert ValidProduct(p);
    assert SaveProduct(db, p, true).Ok?;
    SaveProductPreservesValid(db, p, true);
  }

  /** `getAllProducts`: every stored product, by id. */
  function GetAllProducts(db: Db): (r: map<Uuid, ProductResponse>)
    ensures r.Keys == db.products.Keys
    ensures forall k | k in r :: ProductOfResponse(r[k]) == db.products[k]
  {
    map k | k in db.products :: ToResponse(db.products[k])
  }

  /** `getProductById`. */
  function GetProductById(db: Db, id: Uuid): (r: Outcome<ProductResponse>)
    ensures r.Ok? <==> id in db.products
    ensures r.Ok? ==> ProductOfResponse(r.value) == db.products[id]
    ensures r.Err? ==> r.error == IllegalArgument(ProductIdNotFound(id))
  {
    if id in db.products then Ok(ToResponse(db.products[id])) else Err(IllegalArgument(ProductIdNotFound(id)))
  }

  /** `getProductsByUser`: exactly the caller's products, by id. */
  function GetProductsByUser(db: Db, caller: string): (r: Outcome<map<Uuid, ProductResponse>>)
    ensures r.Err? <==> UserService.FindUser(db, caller).Err?
    ensures r.Ok? ==> forall k :: k in r.value <==>
      k in db.products && db.products[k].ownerId == UserService.FindUser(db, caller).value.id
    ensures r.Ok? ==> forall k | k in r.value :: ProductOfResponse(r.value[k]) == db.products[k]
  {
    var owner :- UserService.FindUser(db, caller);
    var mine := FindByOwner(db, owner.id);
    Ok(map k | k in mine :: ToResponse(mine[k]))
  }

  /** The products listed for two different callers never overlap. */
  lemma ProductsByUserDisjoint(db: Db, a: string, b: string, k: Uuid)
    requires UsersValid(db) && UniqueEmails(db) && a != b
    requires GetProductsByUser(db, a).Ok? && GetProductsByUser(db, b).Ok?
    ensures !(k in GetProductsByUser(db, a).value && k in GetProductsByUser(db, b).value)
  {
    var ua, ub := UserService.FindUser(db, a).value, UserService.FindUser(db, b).value;
    FindByEmailIsStored(db, a);
    FindByEmailIsStored(db, b);
    assert ua.id != ub.id;
  }

  /** The update request carries at least one field the merge applies. */
  predicate AnyProductFieldQualifies(req: ProductUpdateRequest) {
    || UserService.Qualifies(req.name)
    || req.description.Some?
    || UserService.Qualifies(req.sku)
    || UserService.Qualifies(req.manufacturer)
    || req.quantity.Some?
  }

  /** The field merge of `updateProduct`, before timestamps. */
  function MergeProduct(p: Product, req: ProductUpdateRequest): (m: Product)
    ensures m.id == p.id && m.ownerId == p.ownerId && m.dateAdded == p.dateAdded
  {
    p.(name := if UserService.Qualifies(req.name) then Trim(req.name.value) else p.name,
       description := if req.description.Some? then Some(Trim(req.description.value)) else p.description,
       sku := if UserService.Qualifies(req.sku) then Trim(req.sku.value) else p.sku,
       manufacturer := if UserService.Qualifies(req.manufacturer) then Trim(req.manufacturer.value) else p.manufacturer,
       quantity := if req.quantity.Some? then req.quantity.value else p.quantity)
  }

  /**
   * The merge rules: name, SKU and manufacturer change only to a non-blank value, stored
   * trimmed; a present description always replaces the stored one, trimmed, even when blank;
   * a present quantity always replaces the stored one, 0 included; absent fields stay.
   */
  lemma MergeProductRules(p: Product, req: ProductUpdateRequest)
    ensures var m := MergeProduct(p, req);
      && (req.name.Some? && !IsBlank(req.name.value) ==> m.name == Trim(req.name.value))
      && (req.name.None? || IsBlank(req.name.value) ==> m.name == p.name)
      && (req.description.Some? ==> m.description == Some(Trim(req.description.value)))
      && (req.description.None? ==> m.description == p.description)
      && (req.sku.Some? && !IsBlank(req.sku.value) ==> m.sku == Trim(req.sku.value))
      && (req.sku.None? || IsBlank(req.sku.value) ==> m.sku == p.sku)
      && (req.manufacturer.Some? && !IsBlank(req.manufacturer.value) ==> m.manufacturer == Trim(req.manufacturer.value))
      && (req.manufacturer.None? || IsBlank(req.manufacturer.value) ==> m.manufacturer == p.manufacturer)
      && (req.quantity.Some? ==> m.quantity == req.quantity.value)
      && (req.quantity.None? ==> m.quantity == p.quantity)
  {
    if req.name.Some? { TrimEmptyIffBlank(req.name.value); }
    if req.sku.Some? { TrimEmptyIffBlank(req.sku.value); }
    if req.manufacturer.Some? { TrimEmptyIffBlank(req.manufacturer.value); }
  }

  /** A merge of a request that passed `@Valid` keeps a valid product valid. */
  lemma MergeProductKeepsValid(p: Product, req: ProductUpdateRequest)
    requires ValidProduct(p) && ValidUpdateRequest(req)
    ensures ValidProduct(MergeProduct(p, req))
  {
    if UserService.Qualifies(req.name) {
      TrimEmptyIffBlank(Trim(req.name.value));
      TrimIdempotent(req.name.value);
    }
    if UserService.Qualifies(req.sku) {
      TrimEmptyIffBlank(Trim(req.sku.value));
      TrimIdempotent(req.sku.value);
    }
    if UserService.Qualifies(req.manufacturer) {
      TrimEmptyIffBlank(Trim(req.manufacturer.value));
      TrimIdempotent(req.manufacturer.value);
    }
  }

  /**
   * The SKU conflict check of an update: a non-blank SKU, different from the current one by
   * exact comparison, that some product already has exactly.
   */
  predicate SkuConflict(db: Db, p: Product, req: ProductUpdateRequest) {
    UserService.Qualifies(req.sku) && req.sku.value != p.sku && ExistsBySku(db, req.sku.value)
  }

  /**
   * `updateProduct`: the caller is looked up, the product must exist and be the caller's, the
   * SKU must not clash, and some field must qualify; the update timestamp moves only when a
   * column actually changed.
   */
  function UpdateProduct(db: Db, id: Uuid, req: ProductUpdateRequest, caller: string, now: Instant): (t: Tx<ProductResponse>)
    ensures t.result.Err? ==> t.db == db
    ensures UserService.FindUser(db, caller).Err? ==> t.result == Err(UserService.FindUser(db, caller).error)
    ensures UserService.FindUser(db, caller).Ok? && FindByIdAndOwner(db, id, UserService.FindUser(db, caller).value.id).None? ==>
      t.result == Err(IllegalArgument(ProductNotFoundOrDenied()))
    ensures (UserService.FindUser(db, caller).Ok? && FindByIdAndOwner(db, id, UserService.FindUser(db, caller).value.id).Some?
             && SkuConflict(db, db.products[id], req)) ==> t.result == Err(IllegalArgument(SkuTaken(req.sku.value)))
    ensures (UserService.FindUser(db, caller).Ok? && FindByIdAndOwner(db, id, UserService.FindUser(db, caller).value.id).Some?
             && !AnyProductFieldQualifies(req)) ==> t.result == Err(IllegalArgument(NoValidFields()))
    ensures t.result.Ok? ==>
      && UserService.FindUser(db, caller).Ok?
      && FindByIdAndOwner(db, id, UserService.FindUser(db, caller).value.id).Some?
      && !SkuConflict(db, db.products[id], req) && AnyProductFieldQualifies(req)
      && var p := db.products[id];
      && var m := MergeProduct(p, req);
      && var saved := if m == p then p else m.(dateLastUpdated := now);
      && t.db == db.(products := db.products[p.id := saved])
      && t.result.value == ToResponse(saved)
  {
    match UserService.FindUser(db, caller)
    case Err(e) => Tx(Err(e), db)
    case Ok(user) =>
      match FindByIdAndOwner(db, id, user.id)
      case None => Tx(Err(IllegalArgument(ProductNotFoundOrDenied())), db)
      case Some(p) =>
        if SkuConflict(db, p, req) then Tx(Err(IllegalArgument(SkuTaken(req.sku.value))), db)
        else if !AnyProductFieldQualifies(req) then Tx(Err(IllegalArgument(NoValidFields())), db)
        else
          SaveMerged(db, p, req, now)
  }

  /** The write at the end of `updateProduct`: the merged row, re-stamped only when it changed. */
  function SaveMerged(db: Db, p: Product, req: ProductUpdateRequest, now: Instant): (t: Tx<ProductResponse>)
    ensures t.result.Err? ==> t.db == db
    ensures t.result.Ok? ==>
      && var m := MergeProduct(p, req);
      && var saved := if m == p then p else m.(dateLastUpdated := now);
      && t.db == db.(products := db.products[p.id := saved])
      && t.result.value == ToResponse(saved)
  {
    var m := MergeProduct(p, req);
    var saved := if m == p then p else m.(dateLastUpdated := now);
    match SaveProduct(db, saved, false)
    case Err(e) => Tx(Err(e), db)
    case Ok(after) => Tx(Ok(ToResponse(saved)), after)
  }

  /**
   * A product that does not exist and a product that belongs to someone else are reported with
   * the same error, and neither changes the store: the update does not reveal which it was.
   */
  lemma UpdateHidesForeignProducts(db: Db, missing: Uuid, foreign: Uuid, req: ProductUpdateRequest,
                                   caller: string, now: Instant)
    requires UserService.FindUser(db, caller).Ok?
    requires missing !in db.products
    requires foreign in db.products && db.products[foreign].ownerId != UserService.FindUser(db, caller).value.id
    ensures UpdateProduct(db, missing, req, caller, now) == UpdateProduct(db, foreign, req, caller, now)
    ensures UpdateProduct(db, foreign, req, caller, now) == Tx(Err(IllegalArgument(ProductNotFoundOrDenied())), db)
  {
  }

  /**
   * In a valid store, an owner's update that passed `@Valid`, carries a qualifying field, and
   * whose trimmed SKU (if any) no other product holds, succeeds and keeps the store valid.
   */
  lemma UpdateProductKeepsValid(db: Db, id: Uuid, req: ProductUpdateRequest, caller: string, now: Instant)
    requires Valid(db) && ValidUpdateRequest(req) && AnyProductFieldQualifies(req)
    requires UserService.FindUser(db, caller).Ok?
    requires id in db.products && db.products[id].ownerId == UserService.FindUser(db, caller).value.id
    requires !SkuConflict(db, db.products[id], req)
    requires UserService.Qualifies(req.sku) ==>
      forall k | k in db.products && k != id :: db.products[k].sku != Trim(req.sku.value)
    ensures UpdateProduct(db, id, req, caller, now).result.Ok?
    ensures Valid(UpdateProduct(db, id, req, caller, now).db)
  {
    var p := db.products[id];
    MergeProductKeepsValid(p, req);
    var m := MergeProduct(p, req);
    var saved := if m == p then p else m.(dateLastUpdated := now);
    assert saved.id == id && saved.ownerId == p.ownerId;
    assert SaveProduct(db, saved, false).Ok?;
    SaveProductPreservesValid(db, saved, false);
  }

  /**
   * The SKU conflict check compares the SKU as sent, but the SKU is stored trimmed: a padded
   * SKU whose trimmed form another product holds passes the check and is then rejected by the
   * `products.sku` unique key, a server error rather than the "already exists" 400.
   */
  lemma PaddedSkuCollidesAtSave(db: Db, id: Uuid, other: Uuid, req: ProductUpdateRequest, caller: string, now: Instant)
    requires ValidUpdateRequest(req)
    requires UserService.FindUser(db, caller).Ok?
    requires id in db.products && db.products[id].id == id
    requires ValidProduct(db.products[id]) && db.products[id].ownerId in db.users
    requires db.products[id].ownerId == UserService.FindUser(db, caller).value.id
    requires req.sku.Some? && !IsBlank(req.sku.value) && !ExistsBySku(db, req.sku.value)
    requires other in db.products && other != id && db.products[other].sku == Trim(req.sku.value)
    ensures UpdateProduct(db, id, req, caller, now) == Tx(Err(DataIntegrityViolation("products_sku_key")), db)
  {
    TrimEmptyIffBlank(req.sku.value);
    var p := db.products[id];
    MergeProductKeepsValid(p, req);
    var m := MergeProduct(p, req);
    var saved := if m == p then p else m.(dateLastUpdated := now);
    assert !SkuConflict(db, p, req) && AnyProductFieldQualifies(req);
    assert ValidProduct(saved) && saved.ownerId in db.users && saved.id == id;
    assert other in db.products && other != saved.id && db.products[other].sku == saved.sku;
    assert SaveProduct(db, saved, false) == Err(DataIntegrityViolation("products_sku_key"));
  }

  /**
   * `deleteProduct`: the caller is looked up and the product must be theirs; the row is removed
   * without touching its images, so the delete fails while any image still references it.
   */
  function DeleteProduct(db: Db, id: Uuid, caller: string): (t: Tx<()>)
    ensures t.result.Err? ==> t.db == db
    ensures UserService.FindUser(db, caller).Err? ==> t.result == Err(UserService.FindUser(db, caller).error)
    ensures UserService.FindUser(db, caller).Ok? && FindByIdAndOwner(db, id, UserService.FindUser(db, caller).value.id).None? ==>
      t.result == Err(IllegalArgument(ProductNotFoundOrDenied()))
    ensures t.result.Ok? <==>
      && UserService.FindUser(db, caller).Ok?
      && FindByIdAndOwner(db, id, UserService.FindUser(db, caller).value.id).Some?
      && FindByProduct(db, id) == map[]
    ensures t.result.Ok? ==> t.db == db.(products := db.products - {id})
  {
    match UserService.FindUser(db, caller)
    case Err(e) => Tx(Err(e), db)
    case Ok(owner) =>
      match FindByIdAndOwner(db, id, owner.id)
      case None => Tx(Err(IllegalArgument(ProductNotFoundOrDenied())), db)
      case Some(_) =>
        assert FindByProduct(db, id) == map[] <==> forall k | k in db.images :: db.images[k].productId != id by {
          if exists k | k in db.images :: db.images[k].productId == id {
            var k :| k in db.images && db.images[k].productId == id;
            assert k in FindByProduct(db, id);
          }
        }
        match DeleteProductRow(db, id)
        case Err(e) => Tx(Err(e), db)
        case Ok(after) => Tx(Ok(()), after)
  }

  /** After a successful delete the product is gone for every reader, and the store stays valid. */
  lemma DeleteThenGone(db: Db, id: Uuid, caller: string)
    requires Valid(db) && DeleteProduct(db, id, caller).result.Ok?
    ensures GetProductById(DeleteProduct(db, id, caller).db, id) == Err(IllegalArgument(ProductIdNotFound(id)))
    ensures Valid(DeleteProduct(db, id, caller).db)
  {
  }

  /** An owner's delete of a product that still has images is rejected by the foreign key. */
  lemma DeleteWithImagesFails(db: Db, id: Uuid, caller: string, image: Uuid)
    requires UserService.FindUser(db, caller).Ok?
    requires id in db.products && db.products[id].ownerId == UserService.FindUser(db, caller).value.id
    requires image in db.images && db.images[image].productId == id
    ensures DeleteProduct(db, id, caller) == Tx(Err(DataIntegrityViolation("images_product_id_fkey")), db)
  {
  }
}

=== FILE: repositories.dfy ===
/**
 * The relational store behind the JPA repositories: three tables keyed by UUID, the derived
 * queries of `UserRepository`, `ProductRepository` and `ImageRepository`, and writes that
 * enforce the constraints the schema and bean validation impose.
 */
module Repositories {
  import opened Wrappers
  import opened Text
  import opened Exceptions
  import opened Entities

  datatype Db = Db(
    users: map<Uuid, User>,
    products: map<Uuid, Product>,
    images: map<Uuid, Image>)

  /** The `users.email` unique constraint. */
  predicate UniqueEmails(db: Db) {
    forall a, b | a in db.users && b in db.users && db.users[a].email == db.users[b].email :: a == b
  }

  /** The `products.sku` unique constraint. */
  predicate UniqueSkus(db: Db) {
    forall a, b | a in db.products && b in db.products && db.products[a].sku == db.products[b].sku :: a == b
  }

  predicate UsersValid(db: Db) {
    forall k | k in db.users :: db.users[k].id == k && ValidUser(db.users[k])
  }

  /** Every product is valid and its owner exists (`owner_user_id` is a non-null foreign key). */
  predicate ProductsValid(db: Db) {
    forall k | k in db.products ::
      db.products[k].id == k && ValidProduct(db.products[k]) && db.products[k].ownerId in db.users
  }

  /** Every image is valid and its product exists (`product_id` is a non-null foreign key). */
  predicate ImagesValid(db: Db) {
    forall k | k in db.images ::
      db.images[k].imageId == k && ValidImage(db.images[k]) && db.images[k].productId in db.products
  }

  /**
   * What a `@Transactional` service call leaves behind: its outcome and the database state after
   * commit or rollback.
   */
  datatype Tx<T> = Tx(result: Outcome<T>, db: Db)

  /** The invariant every committed state of the database satisfies. */
  predicate Valid(db: Db) {
    && UsersValid(db) && UniqueEmails(db)
    && ProductsValid(db) && UniqueSkus(db)
    && ImagesValid(db)
  }

  // ---------------------------------------------------------------- UserRepository

  /** `existsByEmail`. */
  predicate ExistsByEmail(db: Db, email: string) {
    exists k | k in db.users :: db.users[k].email == email
  }

  /** The key of the one user with `email`, when there is exactly one. */
  predicate IsOnlyUserWith(db: Db, email: string, k: Uuid) {
    && k in db.users && db.users[k].email == email
    && forall k2 | k2 in db.users && db.users[k2].email == email :: k2 == k
  }

  /**
   * `findByEmail`. Under the unique constraint it finds the user exactly when one has the
   * email; a table that broke the constraint would make the query fail, which is read as absent.
   */
  function FindByEmail(db: Db, email: string): (r: Option<User>)
    ensures r.Some? ==> r.value.email == email && r.value in db.users.Values
    ensures UniqueEmails(db) ==> (r.Some? <==> ExistsByEmail(db, email))
  {
    if exists k | k in db.users :: IsOnlyUserWith(db, email, k) then
      var k :| k in db.users && IsOnlyUserWith(db, email, k);
      Some(db.users[k])
    else
      None
  }

  /** In a valid store the user found by email is stored under its own id. */
  lemma FindByEmailIsStored(db: Db, email: string)
    requires UsersValid(db)
    requires FindByEmail(db, email).Some?
    ensures var u := FindByEmail(db, email).value; u.id in db.users && db.users[u.id] == u
  {
    var u := FindByEmail(db, email).value;
    var k :| k in db.users && db.users[k] == u;
  }

  /** `saveAndFlush` of a new user: bean validation, then the primary and unique keys. */
  function InsertUser(db: Db, u: User): (r: Outcome<Db>)
    ensures r.Ok? ==> r.value == db.(users := db.users[u.id := u])
    ensures r.Ok? ==> ValidUser(u) && u.id !in db.users && !ExistsByEmail(db, u.email)
    ensures Valid(db) && r.Ok? ==> Valid(r.value)
  {
    if !ValidUser(u) then Err(ConstraintViolation("users"))
    else if u.id in db.users then Err(DataIntegrityViolation("users_pkey"))
    else if ExistsByEmail(db, u.email) then Err(DataIntegrityViolation("users_email_key"))
    else Ok(db.(users := db.users[u.id := u]))
  }

  /** `saveAndFlush` of an existing user: bean validation, then the unique email. */
  function UpdateUserRow(db: Db, u: User): (r: Outcome<Db>)
    ensures r.Ok? ==> r.value == db.(users := db.users[u.id := u])
    ensures r.Ok? ==> ValidUser(u)
    ensures r.Ok? ==> forall k | k in db.users && k != u.id :: db.users[k].email != u.email
  {
    if !ValidUser(u) then Err(ConstraintViolation("users"))
    else if exists k | k in db.users :: k != u.id && db.users[k].email == u.email then
      Err(DataIntegrityViolation("users_email_key"))
    else Ok(db.(users := db.users[u.id := u]))
  }

  /** Rewriting a stored user, when the write succeeds, keeps the store valid. */
  lemma UpdateUserRowPreservesValid(db: Db, u: User)
    requires Valid(db) && u.id in db.users && UpdateUserRow(db, u).Ok?
    ensures Valid(UpdateUserRow(db, u).value)
  {
    var after := UpdateUserRow(db, u).value;
    assert after.users.Keys == db.users.Keys;
    forall k | k in after.users
      ensures after.users[k].id == k && ValidUser(after.users[k])
    {
      if k != u.id {
        assert after.users[k] == db.users[k];
      }
    }
    forall a, b | a in after.users && b in after.users && after.users[a].email == after.users[b].email
      ensures a == b
    {
      if a != u.id && b != u.id {
        assert after.users[a] == db.users[a] && after.users[b] == db.users[b];
      }
    }
    assert ProductsValid(after);
  }

  // ------------------------------------------------------------- ProductRepository

  /** `existsBySku`: exact comparison. */
  predicate ExistsBySku(db: Db, sku: string) {
    exists k | k in db.products :: db.products[k].sku == sku
  }

  /** `findByOwner`: the products whose owner is `owner`, by key. */
  function FindByOwner(db: Db, owner: Uuid): (r: map<Uuid, Product>)
    ensures forall k :: k in r <==> k in db.products && db.products[k].ownerId == owner
    ensures forall k | k in r :: r[k] == db.products[k]
  {
    map k | k in db.products && db.products[k].ownerId == owner :: db.products[k]
  }

  /** Every product is returned by `findByOwner` for exactly one owner: its own. */
  lemma FindByOwnerPartitions(db: Db, a: Uuid, b: Uuid, k: Uuid)
    requires k in FindByOwner(db, a) && k in FindByOwner(db, b)
    ensures a == b
  {
  }

  /** `findByIdAndOwner`: present exactly when the product exists and belongs to `owner`. */
  function FindByIdAndOwner(db: Db, id: Uuid, owner: Uuid): (r: Option<Product>)
    ensures r.Some? <==> id in db.products && db.products[id].ownerId == owner
    ensures r.Some? ==> r.value == db.products[id] && id in FindByOwner(db, owner)
  {
    if id in db.products && db.products[id].ownerId == owner then Some(db.products[id]) else None
  }

  /**
   * `saveAndFlush` of a product: bean validation, the owner foreign key, then the primary key
   * (for an insert) and the unique SKU.
   */
  function SaveProduct(db: Db, p: Product, isNew: bool): (r: Outcome<Db>)
    ensures r.Ok? ==> r.value == db.(products := db.products[p.id := p])
    ensures r.Ok? ==> ValidProduct(p) && p.ownerId in db.users
    ensures r.Ok? ==> forall k | k in db.products && k != p.id :: db.products[k].sku != p.sku
    ensures r.Ok? && isNew ==> p.id !in db.products
  {
    if !ValidProduct(p) then Err(ConstraintViolation("products"))
    else if p.ownerId !in db.users then Err(DataIntegrityViolation("products_owner_user_id_fkey"))
    else if isNew && p.id in db.products then Err(DataIntegrityViolation("products_pkey"))
    else if exists k | k in db.products :: k != p.id && db.products[k].sku == p.sku then
      Err(DataIntegrityViolation("products_sku_key"))
    else Ok(db.(products := db.products[p.id := p]))
  }

  /** Saving a product that is new or already stored, when the write succeeds, keeps the store valid. */
  lemma SaveProductPreservesValid(db: Db, p: Product, isNew: bool)
    requires Valid(db) && (isNew || p.id in db.products) && SaveProduct(db, p, isNew).Ok?
    ensures Valid(SaveProduct(db, p, isNew).value)
  {
    var after := SaveProduct(db, p, isNew).value;
    assert ProductsValid(after);
    assert UniqueSkus(after);
    assert ImagesValid(after);
  }

  /**
   * `delete(product)`: the row goes, unless an image still references it, in which case the
   * `images.product_id` foreign key rejects the delete.
   */
  function DeleteProductRow(db: Db, id: Uuid): (r: Outcome<Db>)
    ensures r.Ok? <==> forall k | k in db.images :: db.images[k].productId != id
    ensures r.Ok? ==> r.value == db.(products := db.products - {id})
    ensures Valid(db) && r.Ok? ==> Valid(r.value)
  {
    if exists k | k in db.images :: db.images[k].productId == id then
      Err(DataIntegrityViolation("images_product_id_fkey"))
    else
      Ok(db.(products := db.products - {id}))
  }

  // --------------------------------------------------------------- ImageRepository

  /** `findByProduct`: the images whose parent is `productId`, by key. */
  function FindByProduct(db: Db, productId: Uuid): (r: map<Uuid, Image>)
    ensures forall k :: k in r <==> k in db.images && db.images[k].productId == productId
    ensures forall k | k in r :: r[k] == db.images[k]
  {
    map k | k in db.images && db.images[k].productId == productId :: db.images[k]
  }

  /** `deleteByProduct`: removes the images of `productId` and keeps every other. */
  function DeleteByProduct(db: Db, productId: Uuid): (r: Db)
    ensures r.users == db.users && r.products == db.products
    ensures r.images.Keys == db.images.Keys - FindByProduct(db, productId).Keys
    ensures forall k | k in r.images :: r.images[k] == db.images[k]
    ensures Valid(db) ==> Valid(r)
  {
    db.(images := map k | k in db.images && db.images[k].productId != productId :: db.images[k])
  }

  /** After `deleteByProduct(p)`, `findByProduct(p)` is empty. */
  lemma DeleteByProductEmpties(db: Db, p: Uuid)
    ensures FindByProduct(DeleteByProduct(db, p), p) == map[]
  {
    var after := DeleteByProduct(db, p);
    assert FindByProduct(after, p).Keys == {};
  }

  /** `deleteByProduct(p)` leaves what `findByProduct` returns for any other product unchanged. */
  lemma DeleteByProductKeepsOthers(db: Db, p: Uuid, q: Uuid)
    requires p != q
    ensures FindByProduct(DeleteByProduct(db, p), q) == FindByProduct(db, q)
  {
    var after := DeleteByProduct(db, p);
    assert FindByProduct(after, q).Keys == FindByProduct(db, q).Keys;
  }

  /** `save(image)`: bean validation, the product foreign key, then the primary key. */
  function InsertImage(db: Db, i: Image): (r: Outcome<Db>)
    ensures r.Ok? ==> r.value == db.(images := db.images[i.imageId := i])
    ensures r.Ok? ==> ValidImage(i) && i.productId in db.products && i.imageId !in db.images
    ensures Valid(db) && r.Ok? ==> Valid(r.value)
  {
    if !ValidImage(i) then Err(ConstraintViolation("images"))
    else if i.productId !in db.products then Err(DataIntegrityViolation("images_product_id_fkey"))
    else if i.imageId in db.images then Err(DataIntegrityViolation("images_pkey"))
    else Ok(db.(images := db.images[i.imageId := i]))
  }

  /** `delete(image)`: nothing references an image, so the row always goes. */
  function DeleteImageRow(db: Db, id: Uuid): (r: Db)
    ensures id !in r.images && r.users == db.users && r.products == db.products
    ensures forall k | k in db.images && k != id :: k in r.images && r.images[k] == db.images[k]
    ensures r.images.Keys <= db.images.Keys
    ensures Valid(db) ==> Valid(r)
  {
    db.(images := db.images - {id})
  }
}

=== FILE: security.dfy ===
/**
 * `SecurityConfig`: which requests need HTTP Basic credentials, and how a user is loaded for
 * the credential check.
 */
module Security {
  import opened Wrappers
  import opened Exceptions
  import opened Entities
  import opened Repositories
  import UserService

  datatype HttpMethod = Get | Post | Put | Delete | Patch | Head | Options

  /** A request-matcher path: a literal path, or a literal prefix followed by one `*` segment. */
  datatype Pattern = Exact(path: string) | OneSegmentUnder(prefix: string)

  /** A pattern string as the configuration writes it: a trailing slash-star stands for one segment. */
  function ParsePattern(s: string): (p: Pattern)
    ensures p.OneSegmentUnder? <==> |s| >= 2 && s[|s| - 2..] == "/*"
    ensures p.OneSegmentUnder? ==> s == p.prefix + "/*"
    ensures p.Exact? ==> p.path == s
  {
    if |s| >= 2 && s[|s| - 2..] == "/*" then OneSegmentUnder(s[..|s| - 2]) else Exact(s)
  }

  /** `*` matches the characters of one path segment: any number of them, none of them '/'. */
  predicate Matches(p: Pattern, path: string) {
    match p
    case Exact(q) => path == q
    case OneSegmentUnder(prefix) =>
      && |path| > |prefix| && path[..|prefix|] == prefix && path[|prefix|] == '/'
      && forall k | |prefix| < k < |path| :: path[k] != '/'
  }

  datatype Access = PermitAll | Authenticated

  /** One `requestMatchers(...)` line; an absent method matches every method. */
  datatype Rule = Rule(verb: Option<HttpMethod>, pattern: Pattern, access: Access)

  /** The `authorizeHttpRequests` rules, in declaration order. */
  function Rules(): seq<Rule> {
    [ Rule(None, ParsePattern("/v1/user"), PermitAll),
      Rule(None, ParsePattern("/health"), PermitAll),
      Rule(Some(Get), ParsePattern("/v1/product"), PermitAll),
      Rule(Some(Get), ParsePattern("/v1/product/*"), PermitAll) ]
  }

  predicate RuleApplies(r: Rule, m: HttpMethod, path: string) {
    (r.verb.None? || r.verb.value == m) && Matches(r.pattern, path)
  }

  /** The first rule that applies decides; `anyRequest().authenticated()` closes the list. */
  function FirstMatch(rules: seq<Rule>, m: HttpMethod, path: string): (a: Access)
    ensures a == PermitAll ==> exists i | 0 <= i < |rules| :: RuleApplies(rules[i], m, path)
    ensures (forall i | 0 <= i < |rules| :: rules[i].access == PermitAll) ==>
      (a == PermitAll <==> exists i | 0 <= i < |rules| :: RuleApplies(rules[i], m, path))
  {
    if rules == [] then Authenticated
    else if RuleApplies(rules[0], m, path) then rules[0].access
    else
      var rest := FirstMatch(rules[1..], m, path);
      assert forall i | 0 <= i < |rules| - 1 :: rules[1..][i] == rules[i + 1];
      rest
  }

  /** A request the filter chain lets through without credentials. */
  predicate IsPublic(m: HttpMethod, path: string) {
    FirstMatch(Rules(), m, path) == PermitAll
  }

  /** A path one segment below `/v1/product`. */
  predicate ProductChild(path: string) {
    |path| > 11 && path[..11] == "/v1/product" && path[11] == '/' && forall k | 11 < k < |path| :: path[k] != '/'
  }

  /**
   * The public requests, directly: anything on `/v1/user` or `/health` exactly, and a GET of
   * `/v1/product` or of a path one segment below it. Everything else needs credentials.
   */
  lemma PublicIff(m: HttpMethod, path: string)
    ensures IsPublic(m, path) <==>
      || path == "/v1/user" || path == "/health"
      || (m == Get && (path == "/v1/product" || ProductChild(path)))
  {
    var rules := Rules();
    assert rules[0].pattern == Exact("/v1/user");
    assert rules[1].pattern == Exact("/health");
    assert rules[2].pattern == Exact("/v1/product");
    assert rules[3].pattern == OneSegmentUnder("/v1/product");
  }

  /** `GET /v1/product/user` falls under the one-segment rule, so it needs no credentials. */
  lemma ProductUserListingIsPublic()
    ensures IsPublic(Get, "/v1/product/user")
  {
    PublicIff(Get, "/v1/product/user");
    assert ProductChild("/v1/product/user");
  }

  /** Every request for one user's record needs credentials. */
  lemma UserRecordNeedsCredentials(m: HttpMethod, id: Uuid)
    ensures !IsPublic(m, "/v1/user/" + id)
  {
    PublicIff(m, "/v1/user/" + id);
    assert ("/v1/user/" + id)[1] == 'v' && ("/v1/user/" + id)[4] == 'u';
    assert |"/v1/user/" + id| != |"/v1/user"| && |"/v1/user/" + id| != |"/health"|;
    assert ("/v1/user/" + id)[3] == '/';
    assert !ProductChild("/v1/user/" + id) by {
      assert ("/v1/user/" + id)[4] != "/v1/product"[4];
    }
  }

  /** A product can be read by id without credentials, but its images cannot be listed. */
  lemma ProductReadPublicImagesNot(id: Uuid)
    ensures IsPublic(Get, "/v1/product/" + id)
    ensures !IsPublic(Get, "/v1/product/" + id + "/image")
  {
    var one, two := "/v1/product/" + id, "/v1/product/" + id + "/image";
    UuidTextIsPlain(id);
    PublicIff(Get, one);
    assert one[..11] == "/v1/product";
    assert forall k | 11 < k < |one| :: one[k] == id[k - 12];
    assert ProductChild(one);
    PublicIff(Get, two);
    assert two[48] == '/';
  }

  /** Creating, changing or deleting a product always needs credentials. */
  lemma ProductWritesNeedCredentials(m: HttpMethod, path: string)
    requires m != Get
    requires path == "/v1/product" || ProductChild(path)
    ensures !IsPublic(m, path)
  {
    PublicIff(m, path);
    assert path[4] == 'p' by {
      if path != "/v1/product" {
        assert path[..11][4] == "/v1/product"[4];
      }
    }
    assert "/v1/user"[4] != 'p' && "/health"[4] != 'p';
  }

  /** Spring Security's view of an account. */
  datatype UserDetails = UserDetails(username: string, password: string, authorities: seq<string>)

  /**
   * `userDetailsService`: the stored email and password hash with the single authority
   * `ROLE_USER`; an unknown email propagates the service's "not found" error.
   */
  function LoadUserByUsername(db: Db, email: string): (r: Outcome<UserDetails>)
    ensures r.Ok? <==> UserService.FindUser(db, email).Ok?
    ensures r.Err? ==> r == Err(UserService.FindUser(db, email).error)
    ensures r.Ok? ==> exists k | k in db.users ::
      r.value == UserDetails(db.users[k].email, db.users[k].password, ["ROLE_USER"])
    ensures r.Ok? ==> r.value.username == email
  {
    var user :- UserService.FindUser(db, email);
    Ok(UserDetails(user.email, user.password, ["ROLE_USER"]))
  }

  /**
   * HTTP Basic: the credentials are accepted when the user loads and the encoder's `matches`
   * accepts the raw password against the stored hash.
   */
  predicate Authenticates(db: Db, email: string, raw: string, matches: (string, string) -> bool) {
    LoadUserByUsername(db, email).Ok? && matches(raw, LoadUserByUsername(db, email).value.password)
  }

  /**
   * In a valid store, credentials are accepted exactly when a user has that email and the
   * encoder accepts the password against that user's hash.
   */
  lemma AuthenticatesIff(db: Db, email: string, raw: string, matches: (string, string) -> bool)
    requires Valid(db)
    ensures Authenticates(db, email, raw, matches) <==>
      exists k | k in db.users :: db.users[k].email == email && matches(raw, db.users[k].password)
  {
    if exists k | k in db.users :: db.users[k].email == email && matches(raw, db.users[k].password) {
      var k :| k in db.users && db.users[k].email == email && matches(raw, db.users[k].password);
      assert ExistsByEmail(db, email);
      var u := UserService.FindUser(db, email).value;
      FindByEmailIsStored(db, email);
      assert u == db.users[k];
    }
  }
}

=== FILE: statuses.dfy ===
/**
 * The status each service message receives from `determineHttpStatus`: which messages are
 * 404s, which are 403s, and which fall through to 400.
 */
module Statuses {
  import opened Text
  import opened Handler
  import opened Messages

  /** A phrase found in the lower-cased head of a message is found in the lower-cased message. */
  lemma LowerContainsFromHead(head: string, tail: string, p: string, i: nat)
    requires Occurs(Lower(head), p, i)
    ensures Contains(Lower(head + tail), p)
  {
    LowerConcat(head, tail);
    ContainedInFrame([], Lower(head), Lower(tail), p);
    assert [] + Lower(head) + Lower(tail) == Lower(head + tail);
  }

  // ------------------------------------------------------------------- the 404s

  lemma UserIdNotFoundIs404(id: string)
    ensures DetermineHttpStatus(UserIdNotFound(id)) == 404
  {
    assert UserIdNotFound(id) == "User not found " + ("with ID: " + id);
    LowerContainsFromHead("User not found ", "with ID: " + id, "not found", 5);
  }

  lemma UserEmailNotFoundIs404(email: string)
    ensures DetermineHttpStatus(UserEmailNotFound(email)) == 404
  {
    assert UserEmailNotFound(email) == "User not found " + ("with email: " + email);
    LowerContainsFromHead("User not found ", "with email: " + email, "not found", 5);
  }

  lemma UserNotFoundIs404(email: string)
    ensures DetermineHttpStatus(UserNotFound(email)) == 404
  {
    LowerContainsFromHead("User not found: ", email, "not found", 5);
  }

  lemma ProductIdNotFoundIs404(id: string)
    ensures DetermineHttpStatus(ProductIdNotFound(id)) == 404
  {
    assert ProductIdNotFound(id) == "Product not found " + ("with ID: " + id);
    LowerContainsFromHead("Product not found ", "with ID: " + id, "not found", 8);
  }

  lemma ProductNotFoundWithIdIs404(id: string)
    ensures DetermineHttpStatus(ProductNotFoundWithId(id)) == 404
  {
    assert ProductNotFoundWithId(id) == "Product not found " + ("with id: " + id);
    LowerContainsFromHead("Product not found ", "with id: " + id, "not found", 8);
  }

  lemma LowerProductNotFoundOrDenied()
    ensures Lower(ProductNotFoundOrDenied()) == "product not found " + "or access denied"
  {
    LowerConcat("Product not found ", "or access denied");
    assert Lower("Product not found ") == "product not found ";
    assert Lower("or access denied") == "or access denied";
  }

  /** "not found" takes precedence over "access denied": the folded ownership error is a 404. */
  lemma ProductNotFoundOrDeniedIs404()
    ensures DetermineHttpStatus(ProductNotFoundOrDenied()) == 404
    ensures ForbiddenPhrase(Lower(ProductNotFoundOrDenied()))
  {
    LowerProductNotFoundOrDenied();
    assert Occurs("product not found " + "or access denied", "not found", 8);
    assert Occurs("product not found " + "or access denied", "access denied", 21);
  }

  lemma ImageNotFoundIs404(id: string)
    ensures DetermineHttpStatus(ImageNotFound(id)) == 404
  {
    assert ImageNotFound(id) == "Image not found " + ("with id: " + id);
    LowerContainsFromHead("Image not found ", "with id: " + id, "not found", 6);
  }

  // ------------------------------------------------------------------- the 403s

  lemma LowerUploadDenied()
    ensures Lower(UploadDenied()) == "access denied: " + "you can only upload " + "images to your " + "own products"
  {
    LowerConcat("Access denied: " + "You can only upload " + "images to your ", "own products");
    LowerConcat("Access denied: " + "You can only upload ", "images to your ");
    LowerConcat("Access denied: ", "You can only upload ");
    assert Lower("Access denied: ") == "access denied: ";
    assert Lower("You can only upload ") == "you can only upload ";
    assert Lower("images to your ") == "images to your ";
    assert Lower("own products") == "own products";
  }

  lemma UploadDeniedLacksNotFound()
    ensures !Contains("access denied: " + "you can only upload " + "images to your " + "own products", "not found")
  {
    NotContainedByAnchors("access denied: " + "you can only upload " + "images to your " + "own products", "not found", 3, 0, 4);
  }

  lemma UploadDeniedIs403()
    ensures DetermineHttpStatus(UploadDenied()) == 403
  {
    LowerUploadDenied();
    UploadDeniedLacksNotFound();
    assert Occurs("access denied: " + "you can only upload " + "images to your " + "own products", "access denied", 0);
  }

  lemma LowerDeleteDenied()
    ensures Lower(DeleteDenied()) == "access denied: " + "you can only delete " + "images from your " + "own products"
  {
    LowerConcat("Access denied: " + "You can only delete " + "images from your ", "own products");
    LowerConcat("Access denied: " + "You can only delete ", "images from your ");
    LowerConcat("Access denied: ", "You can only delete ");
    assert Lower("Access denied: ") == "access denied: ";
    assert Lower("You can only delete ") == "you can only delete ";
    assert Lower("images from your ") == "images from your ";
    assert Lower("own products") == "own products";
  }

  lemma DeleteDeniedLacksNotFound()
    ensures !Contains("access denied: " + "you can only delete " + "images from your " + "own products", "not found")
  {
    NotContainedByAnchors("access denied: " + "you can only delete " + "images from your " + "own products", "not found", 3, 0, 4);
  }

  lemma DeleteDeniedIs403()
    ensures DetermineHttpStatus(DeleteDenied()) == 403
  {
    LowerDeleteDenied();
    DeleteDeniedLacksNotFound();
    assert Occurs("access denied: " + "you can only delete " + "images from your " + "own products", "access denied", 0);
  }

  lemma LowerViewDenied()
    ensures Lower(ViewDenied()) == "access denied: " + "users can only view " + "their own information"
  {
    LowerConcat("Access denied: " + "Users can only view ", "their own information");
    LowerConcat("Access denied: ", "Users can only view ");
    assert Lower("Access denied: ") == "access denied: ";
    assert Lower("Users can only view ") == "users can only view ";
    assert Lower("their own information") == "their own information";
  }

  lemma ViewDeniedLacksNotFound()
    ensures !Contains("access denied: " + "users can only view " + "their own information", "not found")
  {
    NotContainedByAnchors("access denied: " + "users can only view " + "their own information", "not found", 3, 0, 4);
  }

  lemma ViewDeniedIs403()
    ensures DetermineHttpStatus(ViewDenied()) == 403
  {
    LowerViewDenied();
    ViewDeniedLacksNotFound();
    assert Occurs("access denied: " + "users can only view " + "their own information", "access denied", 0);
  }

  lemma LowerOnlyOwnAccount()
    ensures Lower(OnlyOwnAccount()) == "users can only " + "update their own " + "account information"
  {
    LowerConcat("Users can only " + "update their own ", "account information");
    LowerConcat("Users can only ", "update their own ");
    assert Lower("Users can only ") == "users can only ";
    assert Lower("update their own ") == "update their own ";
    assert Lower("account information") == "account information";
  }

  lemma OnlyOwnAccountLacksNotFound()
    ensures !Contains("users can only " + "update their own " + "account information", "not found")
  {
    NotContainedByAnchors("users can only " + "update their own " + "account information", "not found", 3, 0, 4);
  }

  lemma OnlyOwnAccountIs403()
    ensures DetermineHttpStatus(OnlyOwnAccount()) == 403
  {
    LowerOnlyOwnAccount();
    OnlyOwnAccountLacksNotFound();
    var lower := "users can only " + "update their own " + "account information";
    assert lower[6..31] == "can only " + "update their own";
    assert Occurs(lower, "can only update their own", 6);
  }

  // ------------------------------------------------------------------- the 400s

  /** The text holds no blank, so no phrase of two words can start or end inside it. */
  predicate NoSpace(s: string) {
    forall k | 0 <= k < |s| :: s[k] != ' '
  }

  /** `lower` contains none of the phrases that lead to 404 or 403. */
  predicate LacksStatusPhrases(lower: string) {
    && !Contains(lower, "not found")
    && !Contains(lower, "access denied")
    && !Contains(lower, "can only update their own")
    && !Contains(lower, "can only view their own")
  }

  lemma LowerImageProductMismatch()
    ensures Lower(ImageProductMismatch()) == "image does not " + "belong to the " + "specified product"
  {
    LowerConcat("Image does not " + "belong to the ", "specified product");
    LowerConcat("Image does not ", "belong to the ");
    assert Lower("Image does not ") == "image does not ";
    assert Lower("belong to the ") == "belong to the ";
    assert Lower("specified product") == "specified product";
  }

  lemma ImageProductMismatchLacksPhrases()
    ensures LacksStatusPhrases("image does not " + "belong to the " + "specified product")
  {
    var s := "image does not " + "belong to the " + "specified product";
    NotContainedByAnchors(s, "not found", 3, 0, 4);
    NotContainedByAnchors(s, "access denied", 6, 0, 7);
    NotContainedByAnchors(s, "can only update their own", 3, 0, 4);
    NotContainedByAnchors(s, "can only view their own", 3, 0, 4);
  }

  lemma ImageProductMismatchIs400()
    ensures DetermineHttpStatus(ImageProductMismatch()) == 400
  {
    LowerImageProductMismatch();
    ImageProductMismatchLacksPhrases();
  }

  lemma LowerNoValidFields()
    ensures Lower(NoValidFields()) == "no valid fields " + "provided for update"
  {
    LowerConcat("No valid fields ", "provided for update");
    assert Lower("No valid fields ") == "no valid fields ";
    assert Lower("provided for update") == "provided for update";
  }

  lemma NoValidFieldsLacksPhrases()
    ensures LacksStatusPhrases("no valid fields " + "provided for update")
  {
    var s := "no valid fields " + "provided for update";
    NotContainedByAnchors(s, "not found", 3, 0, 4);
    NotContainedByAnchors(s, "access denied", 6, 0, 7);
    NotContainedByAnchors(s, "can only update their own", 3, 0, 4);
    NotContainedByAnchors(s, "can only view their own", 3, 0, 4);
  }

  lemma NoValidFieldsIs400()
    ensures DetermineHttpStatus(NoValidFields()) == 400
  {
    LowerNoValidFields();
    NoValidFieldsLacksPhrases();
  }

  lemma FileRequiredLacksPhrases()
    ensures LacksStatusPhrases("file is required")
  {
    var s := "file is required";
    NotContainedByAnchors(s, "not found", 3, 0, 4);
    NotContainedByAnchors(s, "access denied", 6, 0, 7);
    NotContainedByAnchors(s, "can only update their own", 3, 0, 4);
    NotContainedByAnchors(s, "can only view their own", 3, 0, 4);
  }

  lemma FileRequiredIs400()
    ensures DetermineHttpStatus(FileRequired()) == 400
  {
    assert Lower(FileRequired()) == "file is required";
    FileRequiredLacksPhrases();
  }

  /** The lower-cased duplicate-SKU message, around the lower-cased SKU. */
  lemma LowerSkuTaken(sku: string)
    ensures Lower(SkuTaken(sku)) == "product with sku " + Lower(sku) + " already exists"
  {
    LowerConcat("Product with SKU " + sku, " already exists");
    LowerConcat("Product with SKU ", sku);
    assert Lower("Product with SKU ") == "product with sku ";
    assert Lower(" already exists") == " already exists";
  }

  lemma SkuTakenLacksNotFound(sku: string)
    requires NoSpace(sku)
    ensures !Contains(Lower(SkuTaken(sku)), "not found")
  {
    LowerSkuTaken(sku);
    NotContainedByAnchors("product with sku " + Lower(sku) + " already exists", "not found", 3, 0, 4);
  }

  lemma SkuTakenLacksAccessDenied(sku: string)
    requires NoSpace(sku)
    ensures !Contains(Lower(SkuTaken(sku)), "access denied")
  {
    LowerSkuTaken(sku);
    NotContainedByAnchors("product with sku " + Lower(sku) + " already exists", "access denied", 6, 0, 7);
  }

  lemma SkuTakenLacksOwnUpdate(sku: string)
    requires NoSpace(sku)
    ensures !Contains(Lower(SkuTaken(sku)), "can only update their own")
  {
    LowerSkuTaken(sku);
    NotContainedByAnchors("product with sku " + Lower(sku) + " already exists", "can only update their own", 3, 0, 4);
  }

  lemma SkuTakenLacksOwnView(sku: string)
    requires NoSpace(sku)
    ensures !Contains(Lower(SkuTaken(sku)), "can only view their own")
  {
    LowerSkuTaken(sku);
    NotContainedByAnchors("product with sku " + Lower(sku) + " already exists", "can only view their own", 3, 0, 4);
  }

  /** A duplicate SKU without blanks is a 400, never a 409. */
  lemma SkuTakenIs400(sku: string)
    requires NoSpace(sku)
    ensures DetermineHttpStatus(SkuTaken(sku)) == 400
  {
    SkuTakenLacksNotFound(sku);
    SkuTakenLacksAccessDenied(sku);
    SkuTakenLacksOwnUpdate(sku);
    SkuTakenLacksOwnView(sku);
  }

  /**
   * The classification reads the whole message, SKU included: a duplicate SKU that itself
   * contains "not found" is reported as a 404.
   */
  lemma SkuTakenCanReadAsNotFound()
    ensures DetermineHttpStatus(SkuTaken("x not found")) == 404
  {
    LowerSkuTaken("x not found");
    assert Lower("x not found") == "x not found";
    assert Occurs(Lower(SkuTaken("x not found")), "not found", 19);
  }

  lemma LowerUserEmailTaken(email: string)
    ensures Lower(UserEmailTaken(email)) == "user with email " + Lower(email) + " already exists"
  {
    LowerConcat("User with email " + email, " already exists");
    LowerConcat("User with email ", email);
    assert Lower("User with email ") == "user with email ";
    assert Lower(" already exists") == " already exists";
  }

  lemma UserEmailTakenLacksNotFound(email: string)
    requires NoSpace(email)
    ensures !Contains(Lower(UserEmailTaken(email)), "not found")
  {
    LowerUserEmailTaken(email);
    NotContainedByAnchors("user with email " + Lower(email) + " already exists", "not found", 3, 0, 4);
  }

  lemma UserEmailTakenLacksAccessDenied(email: string)
    requires NoSpace(email)
    ensures !Contains(Lower(UserEmailTaken(email)), "access denied")
  {
    LowerUserEmailTaken(email);
    NotContainedByAnchors("user with email " + Lower(email) + " already exists", "access denied", 6, 0, 7);
  }

  lemma UserEmailTakenLacksOwnUpdate(email: string)
    requires NoSpace(email)
    ensures !Contains(Lower(UserEmailTaken(email)), "can only update their own")
  {
    LowerUserEmailTaken(email);
    NotContainedByAnchors("user with email " + Lower(email) + " already exists", "can only update their own", 3, 0, 4);
  }

  lemma UserEmailTakenLacksOwnView(email: string)
    requires NoSpace(email)
    ensures !Contains(Lower(UserEmailTaken(email)), "can only view their own")
  {
    LowerUserEmailTaken(email);
    NotContainedByAnchors("user with email " + Lower(email) + " already exists", "can only view their own", 3, 0, 4);
  }

  /** A duplicate email without blanks is a 400, never a 409. */
  lemma UserEmailTakenIs400(email: string)
    requires NoSpace(email)
    ensures DetermineHttpStatus(UserEmailTaken(email)) == 400
  {
    UserEmailTakenLacksNotFound(email);
    UserEmailTakenLacksAccessDenied(email);
    UserEmailTakenLacksOwnUpdate(email);
    UserEmailTakenLacksOwnView(email);
  }
}

=== FILE: text.dfy ===
/**
 * The few `java.lang.String` operations the services rely on, restricted to what the model
 * needs: `trim`, blank tests, ASCII `toLowerCase`, `contains`, and the decimal rendering of a
 * non-negative `long`.
 */
module Text {
  import opened Wrappers

  /** `String.trim` strips every leading and trailing character whose code is at most U+0020. */
  predicate IsTrimmable(c: char) {
    c <= ' '
  }

  /** Drops the leading trimmable characters. */
  function TrimStart(s: string): (r: string)
    ensures |r| <= |s| && r == s[|s| - |r|..]
    ensures forall k | 0 <= k < |s| - |r| :: IsTrimmable(s[k])
    ensures r == [] || !IsTrimmable(r[0])
    decreases |s|
  {
    if |s| > 0 && IsTrimmable(s[0]) then TrimStart(s[1..]) else s
  }

  /** Drops the trailing trimmable characters. */
  function TrimEnd(s: string): (r: string)
    ensures |r| <= |s| && r == s[..|r|]
    ensures forall k | |r| <= k < |s| :: IsTrimmable(s[k])
    ensures r == [] || !IsTrimmable(r[|r| - 1])
    decreases |s|
  {
    if |s| > 0 && IsTrimmable(s[|s| - 1]) then TrimEnd(s[..|s| - 1]) else s
  }

  /** The offset at which `Trim(s)` starts inside `s`. */
  function TrimOffset(s: string): nat
  {
    |s| - |TrimStart(s)|
  }

  /** Java's `s.trim()`. */
  function Trim(s: string): (r: string)
    ensures TrimOffset(s) + |r| <= |s|
    ensures r == s[TrimOffset(s)..TrimOffset(s) + |r|]
    ensures forall k | 0 <= k < TrimOffset(s) :: IsTrimmable(s[k])
    ensures forall k | TrimOffset(s) + |r| <= k < |s| :: IsTrimmable(s[k])
    ensures r == [] || (!IsTrimmable(r[0]) && !IsTrimmable(r[|r| - 1]))
  {
    TrimEnd(TrimStart(s))
  }

  /** What `@NotBlank` rejects: a string made only of trimmable characters. */
  predicate IsBlank(s: string) {
    forall k | 0 <= k < |s| :: IsTrimmable(s[k])
  }

  /** Java's `s.trim().isEmpty()` holds exactly of the blank strings. */
  lemma TrimEmptyIffBlank(s: string)
    ensures |Trim(s)| == 0 <==> IsBlank(s)
  {
    if |Trim(s)| != 0 {
      assert s[TrimOffset(s)] == Trim(s)[0];
    }
  }

  /** A string that neither starts nor ends with a trimmable character is its own trim. */
  lemma {:induction false} TrimKeepsUntrimmed(s: string)
    requires s == [] || (!IsTrimmable(s[0]) && !IsTrimmable(s[|s| - 1]))
    ensures Trim(s) == s
  {
    assert TrimStart(s) == s;
    assert TrimEnd(s) == s;
  }

  /** Trimming twice is trimming once. */
  lemma TrimIdempotent(s: string)
    ensures Trim(Trim(s)) == Trim(s)
  {
    TrimKeepsUntrimmed(Trim(s));
  }

  /** The trim of a non-blank string is non-blank. */
  lemma TrimOfNonBlank(s: string)
    requires !IsBlank(s)
    ensures !IsBlank(Trim(s))
  {
    TrimEmptyIffBlank(s);
    TrimEmptyIffBlank(Trim(s));
  }

  /** ASCII case folding; other characters are left alone. */
  function LowerChar(c: char): (r: char)
    ensures !('A' <= r <= 'Z')
    ensures ('A' <= c <= 'Z') || r == c
  {
    if 'A' <= c <= 'Z' then (c as int + ('a' as int - 'A' as int)) as char else c
  }

  /** `String.toLowerCase` on ASCII text. */
  function Lower(s: string): (r: string)
    ensures |r| == |s|
    ensures forall k | 0 <= k < |s| :: r[k] == LowerChar(s[k])
  {
    seq(|s|, k requires 0 <= k < |s| => LowerChar(s[k]))
  }

  lemma LowerConcat(a: string, b: string)
    ensures Lower(a + b) == Lower(a) + Lower(b)
  {
  }

  /** `p` sits in `s` starting at index `i`. */
  predicate Occurs(s: string, p: string, i: int) {
    0 <= i && i + |p| <= |s| && s[i..i + |p|] == p
  }

  /** `s.contains(p)`. */
  predicate Contains(s: string, p: string) {
    exists i | 0 <= i <= |s| :: Occurs(s, p, i)
  }

  /** Position `k` of `p`, laid over `s` at index `i`, falls on a different character. */
  predicate Mismatch(s: string, p: string, i: int, k: nat) {
    0 <= i && k < |p| && i + k < |s| && s[i + k] != p[k]
  }

  /**
   * `s` does not contain `p` when, at every start index, one of three chosen positions of `p`
   * disagrees with `s`.
   */
  lemma NotContainedByAnchors(s: string, p: string, a: nat, b: nat, c: nat)
    requires a < |p| && b < |p| && c < |p|
    requires forall i | 0 <= i && i + |p| <= |s| ::
      Mismatch(s, p, i, a) || Mismatch(s, p, i, b) || Mismatch(s, p, i, c)
    ensures !Contains(s, p)
  {
    forall i | 0 <= i <= |s|
      ensures !Occurs(s, p, i)
    {
      if i + |p| <= |s| {
        var w := s[i..i + |p|];
        assert w[a] == s[i + a] && w[b] == s[i + b] && w[c] == s[i + c];
        assert Mismatch(s, p, i, a) || Mismatch(s, p, i, b) || Mismatch(s, p, i, c);
      }
    }
  }

  /** Whatever `s` contains, any text built around `s` contains too. */
  lemma ContainedInFrame(pre: string, s: string, post: string, p: string)
    requires Contains(s, p)
    ensures Contains(pre + s + post, p)
  {
    var i :| 0 <= i <= |s| && Occurs(s, p, i);
    assert (pre + s + post)[|pre| + i..|pre| + i + |p|] == s[i..i + |p|];
    assert Occurs(pre + s + post, p, |pre| + i);
  }

  predicate IsDigit(c: char) {
    '0' <= c <= '9'
  }

  function DigitChar(d: nat): (c: char)
    requires d < 10
    ensures IsDigit(c)
  {
    ('0' as int + d) as char
  }

  function DigitValue(c: char): (d: nat)
    requires IsDigit(c)
    ensures d < 10 && DigitChar(d) == c
  {
    c as int - '0' as int
  }

  /** `String.valueOf(n)` for a non-negative `long`: decimal digits, no sign, no leading zero. */
  function Decimal(n: nat): (r: string)
    ensures |r| > 0
    ensures forall k | 0 <= k < |r| :: IsDigit(r[k])
    ensures r[0] != '0' || n == 0
    decreases n
  {
    if n < 10 then [DigitChar(n)] else Decimal(n / 10) + [DigitChar(n % 10)]
  }

  /** The number a string of decimal digits denotes. */
  function DigitsValue(s: string): nat
    requires forall k | 0 <= k < |s| :: IsDigit(s[k])
    decreases |s|
  {
    if s == [] then 0 else 10 * DigitsValue(s[..|s| - 1]) + DigitValue(s[|s| - 1])
  }

  /** Reading back the decimal rendering of `n` gives `n`. */
  lemma {:induction false} DecimalRoundTrip(n: nat)
    ensures DigitsValue(Decimal(n)) == n
    decreases n
  {
    var r := Decimal(n);
    if n >= 10 {
      DecimalRoundTrip(n / 10);
      assert r[..|r| - 1] == Decimal(n / 10);
    }
  }

  /** Two numbers with the same decimal rendering are equal. */
  lemma DecimalInjective(m: nat, n: nat)
    requires Decimal(m) == Decimal(n)
    ensures m == n
  {
    DecimalRoundTrip(m);
    DecimalRoundTrip(n);
  }
}

=== FILE: user_service.dfy ===
/**
 * `UserService`: registration, lookup by id and by email, and the self-only partial update of
 * names and password. The password encoder is a parameter the model does not look inside.
 */
module UserService {
  import opened Wrappers
  import opened Text
  import opened Exceptions
  import opened Entities
  import opened Dto
  import opened Repositories
  import opened Messages

  /** `mapToResponse`: every column but the password. */
  function ToResponse(u: User): UserResponse {
    UserResponse(u.id, u.email, u.firstName, u.lastName, u.accountCreated, u.accountUpdated)
  }

  /** The response depends on the stored user only through its non-secret columns. */
  lemma ResponseHidesPassword(u: User, hash: string)
    ensures ToResponse(u.(password := hash)) == ToResponse(u)
  {
  }

  /** `createUser`: a new account under a fresh id, holding the encoded password. */
  function CreateUser(db: Db, req: UserCreateRequest, encode: string -> string, newId: Uuid, now: Instant): (t: Tx<UserResponse>)
    ensures t.result.Err? ==> t.db == db
    ensures ExistsByEmail(db, req.email) ==> t.result == Err(IllegalArgument(UserEmailTaken(req.email)))
    ensures t.result.Ok? ==>
      var u := User(newId, req.email, encode(req.password), req.firstName, req.lastName, now, now);
      && t.db == db.(users := db.users[newId := u])
      && t.result.value == ToResponse(u)
    ensures t.result.Ok? <==>
      && !ExistsByEmail(db, req.email) && newId !in db.users
      && ValidUser(User(newId, req.email, encode(req.password), req.firstName, req.lastName, now, now))
  {
    if ExistsByEmail(db, req.email) then
      Tx(Err(IllegalArgument(UserEmailTaken(req.email))), db)
    else
      var u := User(newId, req.email, encode(req.password), req.firstName, req.lastName, now, now);
      match InsertUser(db, u)
      case Err(e) => Tx(Err(e), db)
      case Ok(after) => Tx(Ok(ToResponse(u)), after)
  }

  /** A registered account can be found again by its id and by its email. */
  lemma CreateThenFind(db: Db, req: UserCreateRequest, encode: string -> string, newId: Uuid, now: Instant)
    requires Valid(db)
    requires CreateUser(db, req, encode, newId, now).result.Ok?
    ensures var t := CreateUser(db, req, encode, newId, now);
      && Valid(t.db)
      && GetUserById(t.db, newId) == t.result
      && FindUser(t.db, req.email) == Ok(t.db.users[newId])
  {
    var t := CreateUser(db, req, encode, newId, now);
    var u := t.db.users[newId];
    assert Valid(t.db);
    assert ExistsByEmail(t.db, req.email) by {
      assert t.db.users[newId].email == req.email;
    }
  }

  /** `getUserById`. */
  function GetUserById(db: Db, id: Uuid): (r: Outcome<UserResponse>)
    ensures r.Ok? <==> id in db.users
    ensures r.Ok? ==> r.value == ToResponse(db.users[id]) && r.value.id == db.users[id].id
    ensures r.Err? ==> r.error == IllegalArgument(UserIdNotFound(id))
  {
    if id in db.users then Ok(ToResponse(db.users[id])) else Err(IllegalArgument(UserIdNotFound(id)))
  }

  /** `findByEmail` of the service: the stored user, or an "not found" error. */
  function FindUser(db: Db, email: string): (r: Outcome<User>)
    ensures r.Ok? ==> r.value.email == email && r.value in db.users.Values
    ensures UniqueEmails(db) ==> (r.Ok? <==> ExistsByEmail(db, email))
    ensures r.Err? ==> r.error == IllegalArgument(UserEmailNotFound(email))
  {
    match FindByEmail(db, email)
    case Some(u) => Ok(u)
    case None => Err(IllegalArgument(UserEmailNotFound(email)))
  }

  /** Whether a request field takes part in an update: present and not blank after trimming. */
  predicate Qualifies(s: Option<string>) {
    s.Some? && |Trim(s.value)| > 0
  }

  /** The request carries at least one field the update applies. */
  predicate AnyUserFieldQualifies(req: UserUpdateRequest) {
    Qualifies(req.firstName) || Qualifies(req.lastName) || Qualifies(req.password)
  }

  /** The field merge of `updateUser`, before timestamps. */
  function MergeUser(u: User, req: UserUpdateRequest, encode: string -> string): (m: User)
    ensures m.id == u.id && m.email == u.email && m.accountCreated == u.accountCreated
  {
    u.(firstName := if Qualifies(req.firstName) then Trim(req.firstName.value) else u.firstName,
       lastName := if Qualifies(req.lastName) then Trim(req.lastName.value) else u.lastName,
       password := if Qualifies(req.password) then encode(req.password.value) else u.password)
  }

  /**
   * The merge rules: a name is replaced only by a non-blank value and then stored trimmed; a
   * non-blank password is replaced by the encoding of the untrimmed input; absent or blank
   * fields keep their stored value.
   */
  lemma MergeUserRules(u: User, req: UserUpdateRequest, encode: string -> string)
    ensures var m := MergeUser(u, req, encode);
      && (req.firstName.Some? && !IsBlank(req.firstName.value) ==> m.firstName == Trim(req.firstName.value))
      && (req.firstName.None? || IsBlank(req.firstName.value) ==> m.firstName == u.firstName)
      && (req.lastName.Some? && !IsBlank(req.lastName.value) ==> m.lastName == Trim(req.lastName.value))
      && (req.lastName.None? || IsBlank(req.lastName.value) ==> m.lastName == u.lastName)
      && (req.password.Some? && !IsBlank(req.password.value) ==> m.password == encode(req.password.value))
      && (req.password.None? || IsBlank(req.password.value) ==> m.password == u.password)
  {
    if req.firstName.Some? { TrimEmptyIffBlank(req.firstName.value); }
    if req.lastName.Some? { TrimEmptyIffBlank(req.lastName.value); }
    if req.password.Some? { TrimEmptyIffBlank(req.password.value); }
  }

  /**
   * Merging keeps a valid user valid, provided the encoder turns a password into a non-blank
   * hash of at least eight characters.
   */
  lemma MergeUserKeepsValid(u: User, req: UserUpdateRequest, encode: string -> string)
    requires ValidUser(u)
    requires Qualifies(req.password) ==> !IsBlank(encode(req.password.value)) && |encode(req.password.value)| >= 8
    ensures ValidUser(MergeUser(u, req, encode))
  {
    if Qualifies(req.firstName) {
      TrimEmptyIffBlank(Trim(req.firstName.value));
      TrimIdempotent(req.firstName.value);
    }
    if Qualifies(req.lastName) {
      TrimEmptyIffBlank(Trim(req.lastName.value));
      TrimIdempotent(req.lastName.value);
    }
  }

  /**
   * `updateUser`: existence first, then the caller must own the account, then the merge; the
   * update timestamp moves only when a column actually changed.
   */
  function UpdateUser(db: Db, id: Uuid, req: UserUpdateRequest, caller: string,
                      encode: string -> string, now: Instant): (t: Tx<UserResponse>)
    ensures t.result.Err? ==> t.db == db
    ensures id !in db.users ==> t.result == Err(IllegalArgument(UserIdNotFound(id)))
    ensures id in db.users && db.users[id].email != caller ==> t.result == Err(IllegalArgument(OnlyOwnAccount()))
    ensures id in db.users && db.users[id].email == caller && !AnyUserFieldQualifies(req) ==>
      t.result == Err(IllegalArgument(NoValidFields()))
    ensures t.result.Ok? ==>
      && id in db.users && db.users[id].email == caller && AnyUserFieldQualifies(req)
      && var u := db.users[id];
      && var m := MergeUser(u, req, encode);
      && var saved := if m == u then u else m.(accountUpdated := now);
      && t.db == db.(users := db.users[id := saved])
      && t.result.value == ToResponse(saved)
  {
    if id !in db.users then Tx(Err(IllegalArgument(UserIdNotFound(id))), db)
    else
      var u := db.users[id];
      if u.email != caller then Tx(Err(IllegalArgument(OnlyOwnAccount())), db)
      else if !AnyUserFieldQualifies(req) then Tx(Err(IllegalArgument(NoValidFields())), db)
      else
        var m := MergeUser(u, req, encode);
        var saved := if m == u then u else m.(accountUpdated := now);
        match UpdateUserRow(db, saved)
        case Err(e) => Tx(Err(e), db)
        case Ok(after) => Tx(Ok(ToResponse(saved)), after)
  }

  /** In a valid store, an update whose merge keeps the user valid succeeds and keeps the store valid. */
  lemma UpdateUserKeepsValid(db: Db, id: Uuid, req: UserUpdateRequest, caller: string,
                             encode: string -> string, now: Instant)
    requires Valid(db) && id in db.users && db.users[id].email == caller && AnyUserFieldQualifies(req)
    requires Qualifies(req.password) ==> !IsBlank(encode(req.password.value)) && |encode(req.password.value)| >= 8
    ensures UpdateUser(db, id, req, caller, encode, now).result.Ok?
    ensures Valid(UpdateUser(db, id, req, caller, encode, now).db)
  {
    var u := db.users[id];
    MergeUserKeepsValid(u, req, encode);
    var m := MergeUser(u, req, encode);
    var saved := if m == u then u else m.(accountUpdated := now);
    assert saved.id == id && saved.email == u.email;
    assert UpdateUserRow(db, saved).Ok?;
    UpdateUserRowPreservesValid(db, saved);
  }
}

=== FILE: wrappers.dfy ===
/** Failure-compatible wrappers shared by every module of the model. */
module Wrappers {

  /** A value that may be absent: Java's `null` and `Optional.empty()`. */
  datatype Option<+T> = None | Some(value: T) {

    predicate IsFailure() {
      None?
    }

    function PropagateFailure<U>(): Option<U>
      requires None?
    {
      None
    }

    function Extract(): T
      requires Some?
    {
      value
    }

    function GetOr(default: T): T {
      match this
      case Some(v) => v
      case None => default
    }
  }

  /** The outcome of an operation that either returns a value or throws `error`. */
  datatype Result<+T, +E> = Ok(value: T) | Err(error: E) {

    predicate IsFailure() {
      Err?
    }

    function PropagateFailure<U>(): Result<U, E>
      requires Err?
    {
      Err(error)
    }

    function Extract(): T
      requires Ok?
    {
      value
    }
  }
}
